=== FILE: README.md ===
# HexDump core, modelled in Dafny

This project models the core of the `MT.HexDump` library. The library is a
hex dumper that decodes the bytes it shows with a text encoding. Every byte
becomes one `CharData` unit:

- a byte that starts a character carries the character's code point;
- each further byte of a multi-byte character is a continuation unit, with
  code point `-j` for its `j`-th byte;
- a byte the encoding cannot decode becomes a binary unit that holds the
  byte itself.

Units are set into `CharCollectionRow`s of sixteen slots. A row is labelled
with its 16-aligned offset and renders as a hexadecimal column and a
character column.

The model covers:

- the decoding loop `HexDumpCore`, with its four-byte window and the
  `TopBytesFallback` decoder fallback;
- the row aggregation of both `HexDump` overloads;
- the stream reader `HexDumpStream` with its three-unit lookback queue; its
  seek-or-skip positioning is modelled both as written and corrected (see
  Findings), and the reader uses the corrected one;
- `CharData` display strings and cell widths;
- `CharType` flags;
- the other two decoder fallbacks;
- the colour choices of `Color`;
- `Config` and `ColorType`;
- the older, self-contained implementation in `Class1.cs`, modelled as
  module `Legacy`.

The .NET `Encoding` is not modelled. It is a parameter (`Decoding.Encoding`,
`Legacy.LegacyEncoding`): a decoder from a byte window to UTF-16 code units,
plus `GetByteCount`. Properties that depend on the encoding are stated under
the ghost predicate `WellBehaved`. It says that every window decodes to
characters whose byte counts add up to the bytes they came from, or else
falls back on its first bytes. Under `WellBehaved` the decoders are lossless:
the units' bytes are exactly the input bytes, in order. Without it, the model
still guarantees that every successful result is well formed.

Strings are `seq` of UTF-16 code units (`Utf16`), not Dafny `char`. The
width code and the surrogate handling work per code unit.

Exceptions are `Err` results of `Base.Result`. An exception thrown midway
through an iterator voids the whole result in the model.

Facts about the code that shape the model:

- `HexDumper.cs` passes NUL through the decoder like any other byte. Only
  `Class1.cs` (module `Legacy`) special-cases it, as a filled cell with no
  characters.
- `Config.HexColumnSeparator` and `Config.CharColumnSeparator` default to
  the empty string. The row renderers take their separator as a parameter.
- `Config.ContinutionLetters` and `Config.AsciiControlLetters` are not read
  by the renderer. `CharData.GetDisplayString` uses its own two-cell
  continuation mark (U+2190 U+2500) and caret notation for control
  characters.
- `Color.GetFromUnicodeCategory` divides by 29 although there are 30 categories, so `OtherNotAssigned` (29) gets hue 360, which `RGB` treats like hue 0, the hue of `UppercaseLetter`. The colour conversion is symbolic here, so the model shows only the hue 360.
- `Config.DefaultLightness` defaults to 30, while `Color`'s own default
  lightness is 40. `Color` does not read `Config`.

Two places where the source files do not fit together are reconstructed:

- **Unit kinds.** `HexDumper.cs:186` and `HexDumper.cs:191` construct units
  as `(byte, int, true)`. `CharData.cs:33-47` offers only `(byte, long, int)`
  and `(byte, long)`, and has no `CharType` field, yet `Color.cs:46` colours
  by a unit's `CharType`. The model gives every unit a kind, assigned from the
  byte count as the doc comments of `CharType.cs:18-50` describe the values.
  A one-byte character is `SingleByteChar` and a longer one
  `MultiByteChar`. Its `j`-th continuation byte is
  `ContinutionFirstAndLastByte` when it is the only continuation byte,
  `ContinutionFirstByte` for `j == 1`, `ContinutionLastByte` for the final
  byte, and `ContinutionByte` otherwise (`Decoding.LeadUnit`,
  `Decoding.ContinuationUnit`). The unit has no position field: positions
  are passed to `Set` as `HexDumper.cs:40` does.
- **Character cells.** `CharCollectionRow.cs:97` calls
  `PrintDisplayString(sb, cellLength)`, which `CharData.cs` does not define.
  The model renders each cell with `GetDisplayString(false, cellLength)`
  (`CharData.cs:63-81`), so Latin-1 is never shown in the character pane.

## Model

| member | source | states |
|---|---|---|
| Units.Col | src/CharData.cs:23 | the column is 0..15 and congruent to the position modulo 16 |
| Units.RowBase | src/CharData.cs:22 | the row label is 16-aligned, fits the 31-bit mask, and together with the column rebuilds any position in `int` range |
| Units.RowBaseAligned | src/CharCollectionRow.cs:11 | a row's label is the same for every position in that row, and masking a label again changes nothing |
| Units.RawString | src/CharData.cs:56 | no text for a code point ≤ 0; otherwise text exactly when the code point is a Unicode scalar, and that text decodes back to it |
| Units.NaturalDisplay | src/CharData.cs:65-76 | the unpadded display fails exactly for a filled unit whose code point above 0xFF is not a scalar; otherwise it is 1–2 code units, at most 2 cells wide, and a code point above 0xFF reads back from it |
| Units.Pad | src/CharData.cs:77-80 | padding keeps the string as a prefix and appends only spaces, exactly enough to reach the cell length |
| Units.GetDisplayString | src/CharData.cs:63-81 | succeeds exactly when the display does; its width is the larger of the display's and the cell length |
| Units.DisplayReadBack | src/CharData.cs:65-76 | a one-byte character is shown so that its code point can be read back (caret notation, itself, or Latin-1 when enabled); above 0x7F, with Latin-1 off, it shows the non-letter mark |
| Units.ContinuationDisplay | src/CharData.cs:63-81 | every unit with a negative code point, whatever its byte and depth, shows as the continuation mark followed by spaces up to the cell length |
| Units.UnfilledDisplay | src/CharData.cs:63-81 | an unfilled slot shows as blanks: two, or the cell length when that is larger |
| Units.EncodedWidth | src/CharData.cs:86-89 | any scalar's UTF-16 text is at most two cells wide |
| Units.SurrogateIsNarrow | src/CharData.cs:95-116 | a lone surrogate code unit takes one cell |
| CellWidth.UnsignedRangeTest | src/CharData.cs:102-109 | the unsigned-subtraction test `(uint)(c - lo) <= hi - lo` is exactly `lo <= c <= hi` |
| CellWidth.WideIffListed | src/CharData.cs:99-109 | the width test, as written, picks exactly the code units in the table of East Asian wide ranges |
| CellWidth.UnitWidth | src/CharData.cs:95-116 | a code unit takes 1 or 2 cells, 2 exactly inside the wide ranges |
| CellWidth.Width | src/CharData.cs:86-89 | a string's width lies between its length and twice its length |
| CellWidth.WidthAppend | src/CharData.cs:86-89 | width is additive over concatenation |
| CellWidth.JoinWidth | src/CharCollectionRow.cs:89-99 | cells of equal width joined by a separator have the width of the cells plus the separators |
| Unicode.CombineSurrogates | src/HexDumper.cs:176-178 | a surrogate pair combines to a supplementary code point |
| Unicode.Encode | src/HexDumper.cs:178 | a scalar takes one code unit exactly when it is in the BMP, otherwise two |
| Unicode.FromUtf32 | src/HexDumper.cs:183 | the conversion succeeds exactly for scalars, and its text converts back to the code point |
| Unicode.Runes | src/HexDumper.cs:173-184 | the runes of a character buffer are scalars, no more of them than code units |
| Unicode.RunesOfEncoding | src/HexDumper.cs:173-184 | splitting the encoding of scalars into runes gives back the scalars |
| Unicode.RunesLossless | src/HexDumper.cs:173-184 | re-encoding the runes of a buffer gives back the buffer |
| CharTypes.Flags | src/CharType.cs:9-50 | the flag byte of each role: empty only for Empty, the CHAR bit for the two character roles, the continuation bit for the four continuation roles, with no CHAR or BINARY bit |
| CharTypes.RoleOf | src/CharType.cs:9-50 | reading a flag byte as a role is the inverse of `Flags`; no role has an unnamed flag combination |
| CharTypes.RoleRoundTrip | src/CharType.cs:9-50 | every role's flag byte reads back as that role, so the named values are distinct |
| CharTypes.FirstAndLastIsUnion | src/CharType.cs:46 | the first-and-last value is the union of the first and last values |
| TopBytesFallback.Reset | src/TopBytesFallback.cs:44-52 | after a reset no fallback bytes are pending: `HasFallbackChars` is false |
| TopBytesFallback.Fallback | src/TopBytesFallback.cs:72-81 | unknown bytes are taken, and stored, exactly at index 0; any other call leaves the buffer untouched |
| TopBytesFallback.RunCallsWithoutTopCall | src/TopBytesFallback.cs:72-81 | a decode with no fallback at index 0 leaves the buffer as it was |
| TopBytesFallback.RunCallsKeepsLastTopCall | src/TopBytesFallback.cs:72-81 | after a decode, the buffer holds the bytes of the last fallback at index 0 |
| TopBytesFallback.NoSubstitution | src/TopBytesFallback.cs:90-93 | the fallback never substitutes a character: nothing remains and the next character is NUL |
| TopBytesFallback.GetFallbackChars | src/TopBytesFallback.cs:52-66 | the stored bytes come out as binary units, one per byte and in order, there are some exactly when `HasFallbackChars` holds, and the buffer ends empty |
| SingleByteFallback.Fallback | src/SingleByteFallback.cs:19-25 | every unknown byte is taken and all of them are pending |
| SingleByteFallback.GetNextChar | src/SingleByteFallback.cs:27-34 | returns the next pending byte as a character, or NUL when none is left |
| SingleByteFallback.MovePrevious | src/SingleByteFallback.cs:36-45 | steps back one byte exactly when one has been read |
| SingleByteFallback.DrainAfterFallback | src/SingleByteFallback.cs:19-34 | after a fallback, reading gives the unknown bytes in order and then NULs |
| SingleByteFallback.DrainSuffix | src/SingleByteFallback.cs:27-34 | reading a partly read buffer gives its unread suffix and then NULs |
| SingleByteFallback.MovePreviousRepeats | src/SingleByteFallback.cs:27-45 | stepping back after a read restores the buffer, so the same byte is read again |
| MultiByteFallback.Fallback | src/MultiByteFallback.cs:25-36 | at index 0 it keeps the first unknown byte and fails only when there is none; elsewhere it declines and changes nothing |
| MultiByteFallback.GetNextChar | src/MultiByteFallback.cs:38-45 | returns the kept byte once, then NUL |
| MultiByteFallback.FirstByteOnce | src/MultiByteFallback.cs:25-45 | after a fallback at index 0 the decoder reads the first unknown byte and then NUL |
| Decoding.ByteCount | src/HexDumper.cs:185 | the byte count is truncated to a byte and equals the encoding's count whenever that fits |
| Decoding.Window | src/HexDumper.cs:156 | the window is the next 1–4 bytes of the data, and is shorter only at the end |
| Decoding.ContinuationRole | src/CharType.cs:29-50 | the `j`-th continuation byte is marked first exactly when `j == 1` and last exactly when it is the character's final byte |
| Decoding.EmitRune | src/HexDumper.cs:185-194 | a character emits `max(n, 1)` units, and fails exactly when they run past the window |
| Decoding.RuneLayout | src/HexDumper.cs:186-192 | the emitted units are the lead unit and then the continuation units, over consecutive window bytes |
| Decoding.RuneBytes | src/HexDumper.cs:186-192 | the emitted units' bytes are exactly the character's bytes in the window |
| Decoding.RuneUnits | src/HexDumper.cs:186-192 | the lead unit carries the code point and the window byte; continuation `j` carries `-j` and byte `j`; their kinds follow the reconstruction above: multi-byte exactly when n ≥ 2, first/last flags by place |
| Decoding.RuneWellFormed | src/HexDumper.cs:186-192 | a character's units form a well-formed run |
| Decoding.EmitRunesEnd | src/HexDumper.cs:173-195 | the characters of a window fit exactly when their byte counts sum within it, and the cursor ends after that sum |
| Decoding.EmitRunesBytes | src/HexDumper.cs:173-195 | the units of all characters of a window are exactly the window's bytes up to the cursor |
| Decoding.EmitRunesWellFormed | src/HexDumper.cs:173-195 | the characters' units form a well-formed run |
| Decoding.FallbackUnits | src/HexDumper.cs:163-172 | the stored fallback bytes come out first, as binary units, and the buffer is cleared |
| Decoding.Step | src/HexDumper.cs:156-195 | one window step starts with the fallback bytes as binary units and leaves the fallback clear; a decode needing more than the character buffer fails |
| Decoding.StepWellFormed | src/HexDumper.cs:156-195 | a successful step's units form a well-formed run |
| Decoding.StepCovers | src/HexDumper.cs:156-195 | for a window that decodes, the step consumes at least one byte, and its units are exactly the consumed bytes |
| Decoding.RunStep | src/HexDumper.cs:156-195 | the step as a method: its units are well formed, and for a decoding window they cover the consumed prefix |
| Decoding.Core | src/HexDumper.cs:148-197 | `HexDumpCore` yields a well-formed run; for a well-behaved encoding it yields one unit per byte, and their bytes are the data |
| Aggregation.Aggregate | src/HexDumper.cs:38-51 | every row produced is valid and non-empty |
| Aggregation.Aggregated | src/HexDumper.cs:34-51 | the rows built from a start position are valid and non-empty |
| Aggregation.SetEnumerate | src/CharCollectionRow.cs:18-27 | setting a filled unit into an open slot appends it to the row's enumeration |
| Aggregation.AggregateLossless | src/HexDumper.cs:38-51 | enumerating the rows gives back the open row's units followed by the new units |
| Aggregation.AggregatedLossless | src/HexDumper.cs:34-51 | enumerating all rows gives back exactly the units, in order |
| Aggregation.AggregateKeepsFront | src/HexDumper.cs:40 | slots set before the current position in a started row are never overwritten |
| Aggregation.AggregatedPlacement | src/HexDumper.cs:36-47 | unit `i` lands in row `(col(start) + i) / 16`, in slot `col(start + i)`, under the label of `start + i` |
| Aggregation.AggregatedCount | src/HexDumper.cs:38-51 | there are `ceil((col(start) + n) / 16)` rows, and none for no units |
| Aggregation.ColNext | src/HexDumper.cs:41-46 | the column advances by one and wraps from 15 to 0 |
| Rows.NewRow | src/CharCollectionRow.cs:8-16 | a new row is empty, enumerates nothing, and is labelled with the masked position |
| Rows.Set | src/CharCollectionRow.cs:18-22 | `Set` writes slot `position & 0xF`, marks the row non-empty, and leaves every other slot |
| Rows.Enumerate | src/CharCollectionRow.cs:24-27 | the enumerator yields only filled units of the row, and every filled slot among them |
| Rows.CountIsEnumerated | src/CharCollectionRow.cs:101 | `Count` (`Rows.Count`) is the number of units the row enumerates, and 0 for a row nothing was set in |
| Rows.FilledAppend | src/CharCollectionRow.cs:26 | the filled-slot filter distributes over concatenation |
| Rows.Label | src/CharCollectionRow.cs:29 | the label is `0x` and eight hex digits that parse back to the row offset |
| Rows.Cells | src/CharCollectionRow.cs:52-67 | rendering the slots succeeds exactly when each slot renders, and gives each slot's cell in order |
| Rows.HexCell | src/CharCollectionRow.cs:58-66 | a hex cell has exactly the cell length, and fails exactly when a filled byte needs two digits and the cell is shorter |
| Rows.HexCellReadBack | src/CharCollectionRow.cs:58-66 | a filled slot's two digits parse back to its byte, and the rest of the cell is spaces |
| Rows.Capacity | src/CharCollectionRow.cs:38 | the buffer capacity is the 32-bit `int` that agrees with `16 * (cellLength + separator length)` modulo 2^32, and equals it when it fits |
| Rows.OversizedRowRefused | src/CharCollectionRow.cs:36-80 | a capacity between 2^31 and 2^32 wraps negative, so both the hex pane (line 38) and the character pane (line 78) fail with an out-of-range error |
| Rows.HexRow | src/CharCollectionRow.cs:36-68 | the hex row renders exactly when the wrapped 32-bit buffer capacity is non-negative and every filled slot fits its cell |
| Rows.HexRowLength | src/CharCollectionRow.cs:36-68 | the hex row is sixteen cells and fifteen separators long |
| Rows.HexRowReadBack | src/CharCollectionRow.cs:49-68 | each slot's byte can be read back at its cell's offset in the hex row |
| Rows.Hex | src/CharCollectionRow.cs:30 | the default hex row is 47 code units long |
| Rows.CharsRow | src/CharCollectionRow.cs:76-99 | the character row renders exactly when the wrapped 32-bit capacity is non-negative and every slot has a display |
| Rows.CharsRowCells | src/CharCollectionRow.cs:89-99 | the character row is sixteen cells joined by the separator, cell `i` being slot `i`'s display string, each `cellLength` wide when that is at least two |
| Rows.CharsRowWidth | src/CharCollectionRow.cs:76-99 | with cells of at least two, the character row has the width of sixteen cells and fifteen separators |
| Rows.Chars | src/CharCollectionRow.cs:70 | the default character row is 47 cells wide |
| Streaming.Read | src/HexDumper.cs:108 | a read returns the next `min(count, available)` bytes and moves the position past them |
| Streaming.BufferLength | src/HexDumper.cs:78 | the buffer holds 1024 bytes, or the length when that is smaller and positive |
| Streaming.PositionAsWritten | src/HexDumper.cs:82-102 | positioning as written: a stream that cannot seek is accepted only when it is strictly before the offset |
| Streaming.PositionAsWrittenRefusesCurrent | src/HexDumper.cs:86-101 | a stream that cannot seek and is already at the offset is refused |
| Streaming.PositionAsWrittenOvershoots | src/HexDumper.cs:88-97 | skipping from 100 to 1500 ends at 1600 |
| Streaming.PositionAsWrittenOverrunsBuffer | src/HexDumper.cs:89-96 | with a 100-byte buffer, skipping to 1500 reads past the buffer |
| Streaming.Skip | src/HexDumper.cs:88-97 | reading and discarding `n` bytes advances exactly `n`, or stops at the end |
| Streaming.Position | src/HexDumper.cs:82-102 | corrected positioning: seek when possible, otherwise read forward to the offset (or the end), refusing only an offset already passed |
| Streaming.Feed | src/HexDumper.cs:115-133 | the output and the queue are the queue and the new units, in order; the queue stays within three one-byte units |
| Streaming.FeedLookback | src/HexDumper.cs:115-133 | the queue after each chunk is the last run (up to three) of one-byte units of everything decoded so far |
| Streaming.FeedQueue | src/HexDumper.cs:105-133 | starting from an empty queue, the queue holds the trailing one-byte units |
| Streaming.Segment | src/HexDumper.cs:107-141 | the bytes the stream delivers: `min(cap, available)` of them from the start |
| Streaming.SplitWellFormed | src/HexDumper.cs:117-132 | releasing units ahead of the queue keeps the output a well-formed run |
| Streaming.DecodeChunk | src/HexDumper.cs:110-133 | one chunk: the queued bytes go in front of the new ones, the output is well formed, and the output and the new queue hold exactly those bytes |
| Streaming.ReadChunk | src/HexDumper.cs:108-140 | one iteration of the read loop either makes progress or ends with output and queue covering the segment |
| Streaming.ReadChunks | src/HexDumper.cs:104-145 | the whole read loop plus the final drain gives exactly the segment's bytes as a well-formed run |
| Streaming.HexDumpStream | src/HexDumper.cs:74-146 | a positioning error is the result; otherwise the units are well formed and, for a well-behaved encoding, are the bytes from the offset on, up to the length |
| Dumper.Target | src/HexDumper.cs:23-33 | the offset must lie within the data and fit an `int`; the slice is the data from the offset on, cut to a positive length |
| Dumper.HexDump | src/HexDumper.cs:21-52 | argument errors are reported; rows are valid, non-empty and well formed, and for a well-behaved encoding enumerate exactly the slice |
| Dumper.HexDumpFromStream | src/HexDumper.cs:54-72 | positioning errors are reported; rows are valid, non-empty and well formed, and for a well-behaved encoding enumerate exactly the stream's segment |
| Colors.GetFromHLS | src/RGB.cs:26-31 | an escape is produced exactly for hue 0..360, lightness and saturation 0..100; anything else is out of range |
| Colors.ByteHue | src/Color.cs:29 | the hue is `b * 360 / 255` rounded down, within 0..360 |
| Colors.ByteHueRoundTrip | src/Color.cs:27-30 | the byte can be read back from its hue, so distinct bytes get distinct hues |
| Colors.ByteHueOrder | src/Color.cs:29 | the hue rises strictly with the byte, from 0 to 360 |
| Colors.GetColorFromByte | src/Color.cs:27-30 | succeeds exactly when lightness and saturation are in range, with a hue that reads back to the byte |
| Colors.CategoryHue | src/Color.cs:77-80 | the hue is `uc * 360 / 29` rounded up, within 0..360, and 360 exactly for `OtherNotAssigned` (29), the last of the 30 categories |
| Colors.CategoryHueRoundTrip | src/Color.cs:75-81 | the category can be read back from its hue |
| Colors.GetFromUnicodeCategory | src/Color.cs:75-81 | no colour exactly when there is no category; otherwise default lightness and saturation with a hue that reads back to the category |
| Colors.GetFromCharType | src/Color.cs:46-66 | no colour exactly for Empty or an unnamed flag combination; every colour has lightness 40 |
| Colors.RoleColors | src/Color.cs:50-63 | binary units are grey, multi-byte and continuation units hue 240, one-byte characters saturated |
| Colors.CharacterColoredAlike | src/Color.cs:58-63 | every byte of a multi-byte character gets the same colour as its lead byte |
| Colors.ColorMatchesDisplay | src/Color.cs:51-57 | a one-byte character's hue says how it is displayed: 120 for caret notation, 210 for itself, 90/270 for the non-letter mark, told apart by Latin-1 display |
| Configuration.ColorTypeValue | src/ColorType.cs:6-27 | the four colour types are the values 0..3, with 0 for none |
| Configuration.ColorTypeOf | src/ColorType.cs:6-27 | an integer names a colour type exactly when it is 0..3 |
| Configuration.ColorTypeRoundTrip | src/ColorType.cs:6-27 | value and colour type convert back and forth |
| Configuration.DefaultValid | src/Config.cs:93-131 | the defaults are in range, and the control-character glyphs are U+2400 onwards, 34 of them |
| Configuration.SetInitialHue | src/Config.cs:20-33 | accepts exactly 0..360, otherwise out of range; it changes only the hue and keeps the configuration valid |
| Configuration.SetDefaultLightness | src/Config.cs:34-47 | accepts exactly 0..100, otherwise out of range; it changes only the lightness |
| Configuration.SetDefaultSaturation | src/Config.cs:49-62 | accepts exactly 0..100, otherwise out of range; it changes only the saturation |
| Configuration.SetContinuationLetters | src/Config.cs:77-88 | accepts exactly three letters, otherwise out of range; it changes only the letters |
| Configuration.SetRestores | src/Config.cs:20-88 | setting a field back to its old value restores the configuration |
| Configuration.Clone | src/Config.cs:133-149 | cloning succeeds exactly on a valid configuration and gives an equal one |
| Configuration.CloneIdempotent | src/Config.cs:133-149 | a clone clones to itself |
| Legacy.DisplayString | src/Class1.cs:14-37 | the display is never empty, and is at most one code unit longer than the cell's characters (two for a cell without any) |
| Legacy.DisplayWidth | src/Class1.cs:14-37 | every displayable cell is exactly two cells wide |
| Legacy.ShownRoundTrip | src/Class1.cs:14-37 | a one-character cell's display reads back to that character |
| Legacy.Step | src/Class1.cs:147-196 | one window step gives at least one cell, at consecutive positions, each displayable |
| Legacy.StepNul | src/Class1.cs:160-163 | a NUL byte is one filled cell with no characters |
| Legacy.StepSurrogatePair | src/Class1.cs:166-174 | a surrogate pair takes the whole window, and its lead cell shows the pair |
| Legacy.StepBmp | src/Class1.cs:176-184 | a BMP character takes its byte count, failing exactly when that exceeds the window |
| Legacy.StepUnknown | src/Class1.cs:186-192 | undecodable bytes become one empty cell each, and an empty fallback fails |
| Legacy.StepRaw | src/Class1.cs:193-196 | otherwise the byte is shown as itself |
| Legacy.CoreFrom | src/Class1.cs:142-198 | the cells are at consecutive positions, at least one per byte, each displayable |
| Legacy.StepLossless | src/Class1.cs:147-196 | for a decoding window, the step's cells are the window's leading bytes |
| Legacy.CoreLossless | src/Class1.cs:142-198 | for a well-behaved encoding the cells' bytes are exactly the data |
| Legacy.NewRow | src/Class1.cs:73-78 | a new row is empty, with sixteen unfilled slots |
| Legacy.Set | src/Class1.cs:80-85 | a cell goes to the slot of its position, and every other slot is kept |
| Legacy.Label | src/Class1.cs:95 | the label parses back to the row base of the first slot's position |
| Legacy.HexCell | src/Class1.cs:101 | two hex digits that parse back to the byte, or two spaces |
| Legacy.Hex | src/Class1.cs:96-104 | the hex column is 47 code units long |
| Legacy.HexReadBack | src/Class1.cs:96-104 | slot `i`'s byte reads back at offset `3 * i` |
| Legacy.Chars | src/Class1.cs:105-113 | the character column is at least sixteen cells and fifteen bars |
| Legacy.CharsWidth | src/Class1.cs:105-113 | when all cells are displayable, the character column is 47 cells wide |
| Legacy.Collect | src/Class1.cs:126-139 | every collected row is valid and non-empty |
| Legacy.CollectPlacement | src/Class1.cs:126-135 | each cell lands in the slot of its own position |
| Legacy.CollectCount | src/Class1.cs:126-139 | the number of rows is the number of 16-byte rows the positions touch |
| Legacy.HexDump | src/Class1.cs:122-140 | rows are valid and non-empty |
| Legacy.HexDumpPlacement | src/Class1.cs:122-140 | for a well-behaved encoding there are `ceil(n / 16)` rows, and byte `i` sits in row `i / 16`, slot `i % 16`, at position `i` |

## Left out

- The UTF-8 convenience overloads `HexDumper.HexDump(data, offset, length)` and `Class1.HexDump(data)`: they only pass a fixed encoding to the modelled overloads.
- `Encoding.GetEncoding(codePage, …, new TopBytesFallback())`: the encoding is a parameter. Its code page identity and its encoder fallback are not modelled.
- `DebugPrint`: it writes to the console only.
- Laziness of `yield`: a consumer that stops early sees rows produced before a later exception. In the model, an exception voids the whole result.
- `RGB.FromHLS` and `ToTermBg`: the colour conversion and the escape text are symbolic (`Colors.Escape`). Only their range checks are modelled.
- `EncodingCompleter` and `EncodingTransformationAttribute`: they serve command-line argument completion and conversion, not the dump.
- `Config.Default`'s lazy initialisation and the aliasing of the arrays `Clone` copies: configurations are values.
- `Config.Encoding` as an `Encoding` object: the model keeps its code page number.
- Null arguments (a null array given to a setter, a null stream): Dafny values cannot be null.
- Streaming.HexDumpStream: it positions the stream with the corrected `Streaming.Position`, not as `HexDumper.cs:82-102` is written. It therefore accepts a stream that cannot seek and already sits at the offset, skips exactly to the offset, and never overruns a short buffer. The three differences are the Findings below; `Streaming.PositionAsWritten` keeps the code as written.
- Dumper.HexDumpFromStream: it inherits the corrected positioning of `Streaming.HexDumpStream`, for the same reason.
- Decoding.Core: a window that consumes no byte makes the source loop forever. This happens when the window's fallback bytes and the byte counts of its characters add up to zero, for instance when the decoder reports no characters and no fallback, or every count truncates to 0 (`HexDumper.cs:154-195`). The model ends with `Err(NoProgress)` instead.
- Legacy.Step: an empty `BytesUnknown` report likewise makes `Class1.cs:186-192` loop forever. The model ends with `Err(NoProgress)`.
- Rows.HexRow: strings are unbounded here, while a .NET string holds at most about 2^30 characters, so a hex row too long for one (a huge capacity that does not wrap negative) throws `OutOfMemoryException` in .NET and renders in the model.
- Rows.CharsRow: the same string-length limit as for `Rows.HexRow` is not modelled.
- Streaming.PositionAsWritten: every stream in the model has a readable `Position`. In .NET the `Position` getter of a stream that cannot seek usually throws `NotSupportedException`, so `HexDumper.cs:86` then throws before any skipping. The model, and the three Findings, cover non-seekable streams that do report a position.
- Streaming.Read: a stream that returns fewer bytes than asked while more are left is not modelled. Every read returns all the bytes it can.
- The legacy row's `Count` (always 16) and `GetEnumerator` (all sixteen slots, filled or not): they expose the slots as they are, so `Legacy.CollectPlacement` states the slot contents directly.
- `SingleByteFallback` and `MultiByteFallback` are modelled on their own. The dump uses only `TopBytesFallback`.
- `TopBytesFallback.MovePrevious` and `MultiByteFallback.MovePrevious`: they always throw, and are modelled as constant `Err(NotImplemented)`.
- Legacy.Chars: it states a lower bound on the length. The exact width is stated by `Legacy.CharsWidth` for displayable cells.
- Legacy.DisplayString: it states only bounds on its result. Its read-back and width are stated by `Legacy.ShownRoundTrip` and `Legacy.DisplayWidth`.

## Findings

| source | as written | input that shows it | evidently intended | confidence | as-written member | corrected member |
|---|---|---|---|---|---|---|
| src/HexDumper.cs:86 | a stream that cannot seek is refused unless it is strictly before the offset | a non-seekable stream at position 0 and offset 0 is refused, although nothing needs skipping (Streaming.PositionAsWrittenRefusesCurrent) | accept a stream already at the offset | not executed | Streaming.PositionAsWritten | Streaming.Position |
| src/HexDumper.cs:88-97 | the skip reads `(offset - Position) / 1024` whole buffers and then `offset % 1024` bytes: the remainder is taken from the offset, not from the distance | a non-seekable stream at position 100 skipped to offset 1500 ends at 1600 (Streaming.PositionAsWrittenOvershoots) | skip exactly `offset - Position` bytes | not executed | Streaming.PositionAsWritten | Streaming.Skip |
| src/HexDumper.cs:89-96 | the final skip read asks for `offset % 1024` bytes into a buffer that may be shorter | length 100 makes a 100-byte buffer, and skipping to offset 1500 asks for 476 bytes into it (Streaming.PositionAsWrittenOverrunsBuffer) | skip in chunks no larger than the buffer | not executed | Streaming.PositionAsWritten | Streaming.Position |

=== FILE: aggregation.dfy ===
/**
  The loop both `HexDump` overloads run over the decoded units: every unit is
  set into the current row at its position, a row is yielded as soon as its
  last slot (column 15) has been set, and the row still open at the end is
  yielded only when something was set in it.
 */
module Aggregation {
  import opened Base
  import opened Units
  import opened Rows

  /** The loop from the current `row` and `position` over the remaining units. */
  function Aggregate(row: Row, position: int, units: seq<CharData>): (rows: seq<Row>)
    requires Valid(row)
    ensures forall k :: 0 <= k < |rows| ==> Valid(rows[k]) && !rows[k].isEmpty
    decreases |units|
  {
    if units == [] then
      if row.isEmpty then [] else [row]
    else
      var r := Set(row, position, units[0]);
      if Col(position) == 15 then
        [r] + Aggregate(NewRow(position + 1), position + 1, units[1..])
      else
        Aggregate(r, position + 1, units[1..])
  }

  /** The rows of units whose first one sits at position `start`. */
  function Aggregated(start: int, units: seq<CharData>): (rows: seq<Row>)
    ensures forall k :: 0 <= k < |rows| ==> Valid(rows[k]) && !rows[k].isEmpty
  {
    Aggregate(NewRow(start), start, units)
  }

  /** What a consumer enumerating every yielded row sees, row after row. */
  function Flatten(rows: seq<Row>): seq<CharData>
    decreases |rows|
  {
    if rows == [] then [] else Enumerate(rows[0]) + Flatten(rows[1..])
  }

  // ---------------------------------------------------------------------
  // Position arithmetic of consecutive positions.

  /** The next position is the next column, or column 0 of the next row after column 15. */
  lemma ColNext(position: int)
    ensures Col(position) < 15 ==> Col(position + 1) == Col(position) + 1
    ensures Col(position) == 15 ==> Col(position + 1) == 0
  {
    var q := position / 16;
    var c := position % 16;
    assert position + 1 == 16 * q + (c + 1);
    if c < 15 {
      ModUnique(position + 1, 16, q, c + 1);
    } else {
      ModUnique(position + 1, 16, q + 1, 0);
    }
  }

  /** Short of column 15, the next position belongs to the same row. */
  lemma RowBaseNext(position: int)
    requires Col(position) < 15
    ensures RowBase(position + 1) == RowBase(position)
  {
    var m := position % 0x8000_0000;
    var q := position / 0x8000_0000;
    var k := m / 16;
    // m agrees with position modulo 16, because 0x8000_0000 is a multiple of 16
    assert position == 16 * (0x800_0000 * q + k) + m % 16;
    ModUnique(position, 16, 0x800_0000 * q + k, m % 16);
    assert m < 0x7FFF_FFFF;
    ModUnique(position + 1, 0x8000_0000, q, m + 1);
    ColNext(position);
  }

  // ---------------------------------------------------------------------
  // Nothing is lost.

  /** No slot from column `c` on has been set yet. */
  predicate OpenFrom(row: Row, c: int) {
    forall k :: 0 <= k < |row.slots| && c <= k ==> !row.slots[k].filled
  }

  /** Replacing the first of a run of unfilled slots by a filled unit appends it to the enumeration. */
  lemma FilledSetOpen(slots: seq<CharData>, c: nat, u: CharData)
    requires c < |slots| && u.filled
    requires forall k :: c <= k < |slots| ==> !slots[k].filled
    ensures Filled(slots[c := u]) == Filled(slots) + [u]
  {
    var front := slots[..c];
    var back := slots[c + 1..];
    assert slots == front + ([slots[c]] + back);
    assert slots[c := u] == (front + [u]) + back;
    assert forall k :: 0 <= k < |back| ==> back[k] == slots[c + 1 + k];
    FilledNone(back);
    FilledNone([slots[c]] + back);
    FilledAppend(front, [slots[c]] + back);
    FilledAppend(front + [u], back);
    FilledAppend(front, [u]);
    FilledAll([u]);
  }

  /** Setting a unit after the last filled slot appends it to the enumeration. */
  lemma SetEnumerate(row: Row, position: int, u: CharData)
    requires Valid(row) && u.filled && OpenFrom(row, Col(position))
    ensures Enumerate(Set(row, position, u)) == Enumerate(row) + [u]
    ensures Col(position) < 15 ==> OpenFrom(Set(row, position, u), Col(position + 1))
  {
    assert Set(row, position, u).slots == row.slots[Col(position) := u];
    FilledSetOpen(row.slots, Col(position), u);
    ColNext(position);
  }

  lemma FlattenCons(r: Row, rows: seq<Row>)
    ensures Flatten([r] + rows) == Enumerate(r) + Flatten(rows)
  {
    assert ([r] + rows)[1..] == rows;
  }

  /** All the units are filled, as decoded units are. */
  predicate AllFilled(units: seq<CharData>) {
    forall i :: 0 <= i < |units| ==> units[i].filled
  }

  lemma LosslessEnd(row: Row, position: int)
    requires Valid(row)
    ensures Flatten(Aggregate(row, position, [])) == Enumerate(row)
  {
    if row.isEmpty {
      FilledNone(row.slots);
    } else {
      FlattenCons(row, []);
    }
  }

  /** A unit set into column 15 completes its row, which is yielded before the rest. */
  lemma LosslessWrap(row: Row, position: int, u: CharData, rest: seq<CharData>)
    requires Valid(row) && OpenFrom(row, Col(position)) && u.filled && Col(position) == 15
    requires Flatten(Aggregate(NewRow(position + 1), position + 1, rest)) == rest
    ensures Flatten(Aggregate(row, position, [u] + rest)) == Enumerate(row) + ([u] + rest)
  {
    var r := Set(row, position, u);
    var tail := Aggregate(NewRow(position + 1), position + 1, rest);
    assert ([u] + rest)[1..] == rest;
    calc {
      Flatten(Aggregate(row, position, [u] + rest));
      Flatten([r] + tail);
      { FlattenCons(r, tail); }
      Enumerate(r) + rest;
      { SetEnumerate(row, position, u); }
      Enumerate(row) + [u] + rest;
    }
  }

  /** A unit set short of column 15 stays in the open row. */
  lemma LosslessNext(row: Row, position: int, u: CharData, rest: seq<CharData>)
    requires Valid(row) && OpenFrom(row, Col(position)) && u.filled && Col(position) < 15
    requires var r := Set(row, position, u);
             Flatten(Aggregate(r, position + 1, rest)) == Enumerate(r) + rest
    ensures Flatten(Aggregate(row, position, [u] + rest)) == Enumerate(row) + ([u] + rest)
  {
    assert ([u] + rest)[1..] == rest;
    SetEnumerate(row, position, u);
  }

  lemma {:induction false} AggregateLossless(row: Row, position: int, units: seq<CharData>)
    requires Valid(row) && OpenFrom(row, Col(position)) && AllFilled(units)
    ensures Flatten(Aggregate(row, position, units)) == Enumerate(row) + units
    decreases |units|
  {
    if units == [] {
      LosslessEnd(row, position);
    } else {
      var u := units[0];
      var rest := units[1..];
      assert units == [u] + rest;
      assert AllFilled(rest) by {
        assert forall i :: 0 <= i < |rest| ==> rest[i] == units[i + 1];
      }
      assert u.filled;
      if Col(position) == 15 {
        AggregateLossless(NewRow(position + 1), position + 1, rest);
        LosslessWrap(row, position, u, rest);
      } else {
        SetEnumerate(row, position, u);
        AggregateLossless(Set(row, position, u), position + 1, rest);
        LosslessNext(row, position, u, rest);
      }
    }
  }

  /** Enumerating every row yields the units again, in order. */
  lemma AggregatedLossless(start: int, units: seq<CharData>)
    requires AllFilled(units)
    ensures Flatten(Aggregated(start, units)) == units
  {
    AggregateLossless(NewRow(start), start, units);
  }

  // ---------------------------------------------------------------------
  // Where each unit lands.

  /** Later units never touch the slots before the current column of a row already begun. */
  lemma {:induction false} AggregateKeepsFront(row: Row, position: int, units: seq<CharData>, c: int)
    requires Valid(row) && !row.isEmpty && 0 <= c < Col(position)
    ensures |Aggregate(row, position, units)| > 0
    ensures Aggregate(row, position, units)[0].slots[c] == row.slots[c]
    ensures Aggregate(row, position, units)[0].offset == row.offset
    decreases |units|
  {
    if units != [] {
      ColNext(position);
      if Col(position) != 15 {
        AggregateKeepsFront(Set(row, position, units[0]), position + 1, units[1..], c);
      }
    }
  }

  /** Unit `i` is in slot `Col(position + i)` of row `(Col(position) + i) / 16`, labelled with its row offset. */
  predicate Placed(rows: seq<Row>, position: int, units: seq<CharData>, i: nat)
    requires i < |units|
  {
    var k := (Col(position) + i) / 16;
    && k < |rows| && |rows[k].slots| == 16
    && rows[k].slots[Col(position + i)] == units[i]
    && rows[k].offset == RowBase(position + i)
  }

  /** The first unit is placed when the first row holds it in its column. */
  lemma PlacedFirst(rows: seq<Row>, position: int, units: seq<CharData>)
    requires |units| > 0 && |rows| > 0 && |rows[0].slots| == 16
    requires rows[0].slots[Col(position)] == units[0] && rows[0].offset == RowBase(position)
    ensures Placed(rows, position, units, 0)
  {
    assert position + 0 == position;
  }

  /** Within one row, placing the units after the first one from the next position places them from this one. */
  lemma PlacedNext(rows: seq<Row>, position: int, units: seq<CharData>, i: nat)
    requires 0 < i < |units| && Col(position) < 15
    requires Placed(rows, position + 1, units[1..], i - 1)
    ensures Placed(rows, position, units, i)
  {
    ColNext(position);
    assert position + 1 + (i - 1) == position + i;
  }

  /** After column 15, the units after the first one are placed in the rows after the first. */
  lemma PlacedWrap(r: Row, tail: seq<Row>, position: int, units: seq<CharData>, i: nat)
    requires 0 < i < |units| && Col(position) == 15
    requires Placed(tail, position + 1, units[1..], i - 1)
    ensures Placed([r] + tail, position, units, i)
  {
    ColNext(position);
    assert (15 + i) / 16 == (i - 1) / 16 + 1;
    assert position + 1 + (i - 1) == position + i;
  }

  lemma {:induction false} AggregatePlacement(row: Row, position: int, units: seq<CharData>, i: nat)
    requires Valid(row) && row.offset == RowBase(position) && i < |units|
    ensures Placed(Aggregate(row, position, units), position, units, i)
    decreases |units|
  {
    var rest := units[1..];
    var r := Set(row, position, units[0]);
    if Col(position) == 15 {
      var tail := Aggregate(NewRow(position + 1), position + 1, rest);
      assert Aggregate(row, position, units) == [r] + tail;
      if i == 0 {
        PlacedFirst([r] + tail, position, units);
      } else {
        AggregatePlacement(NewRow(position + 1), position + 1, rest, i - 1);
        PlacedWrap(r, tail, position, units, i);
      }
    } else {
      var rows := Aggregate(r, position + 1, rest);
      assert Aggregate(row, position, units) == rows;
      ColNext(position);
      if i == 0 {
        AggregateKeepsFront(r, position + 1, rest, Col(position));
        PlacedFirst(rows, position, units);
      } else {
        RowBaseNext(position);
        AggregatePlacement(r, position + 1, rest, i - 1);
        PlacedNext(rows, position, units, i);
      }
    }
  }

  /**
    Unit `i` lands in row `(Col(start) + i) / 16`, in slot `Col(start + i)`,
    and that row is labelled with the row offset of position `start + i`.
   */
  lemma AggregatedPlacement(start: int, units: seq<CharData>, i: nat)
    requires i < |units|
    ensures var rows := Aggregated(start, units);
            var k := (Col(start) + i) / 16;
            k < |rows| && rows[k].slots[Col(start + i)] == units[i] && rows[k].offset == RowBase(start + i)
  {
    AggregatePlacement(NewRow(start), start, units, i);
  }

  // ---------------------------------------------------------------------
  // How many rows.

  lemma {:induction false} AggregateCount(row: Row, position: int, units: seq<CharData>)
    requires Valid(row)
    ensures var n := |units|;
            |Aggregate(row, position, units)| ==
              (Col(position) + n) / 16
              + (if n > 0 then (if (Col(position) + n) % 16 != 0 then 1 else 0)
                 else if row.isEmpty then 0 else 1)
    decreases |units|
  {
    if units != [] {
      var r := Set(row, position, units[0]);
      ColNext(position);
      if Col(position) == 15 {
        AggregateCount(NewRow(position + 1), position + 1, units[1..]);
      } else {
        AggregateCount(r, position + 1, units[1..]);
      }
    }
  }

  /** One row per 16 columns touched, counting from the column of `start`; none for no units. */
  lemma AggregatedCount(start: int, units: seq<CharData>)
    ensures |Aggregated(start, units)| == if units == [] then 0 else (Col(start) + |units| + 15) / 16
  {
    AggregateCount(NewRow(start), start, units);
  }
}

=== FILE: base.dfy ===
/**
  Shared vocabulary of the hex-dump model: bytes, UTF-16 code units (the .NET
  `char`), failure-compatible results for the exceptions the library throws,
  and the small string builders (`Repeat`, `Join`, hexadecimal digits) that
  the renderers use.
 */
module Base {

  /** A .NET `byte`. */
  type Byte = b: int | 0 <= b < 0x100

  /** A .NET `char`: one UTF-16 code unit, surrogates included. */
  type CodeUnit = c: int | 0 <= c < 0x1_0000

  /** A .NET `string`: a sequence of UTF-16 code units. */
  type Utf16 = seq<CodeUnit>

  /** `int.MaxValue` */
  const INT_MAX: int := 0x7FFF_FFFF

  const SPACE: CodeUnit := 0x20

  datatype Option<+T> = None | Some(value: T)

  /** The exceptions (and the one endless loop) of the library, by cause. */
  datatype Error =
    | OffsetOutOfRange       // ArgumentOutOfRangeException on an offset or a slice
    | CountOutOfRange        // ArgumentOutOfRangeException on a negative count or capacity
    | IndexOutOfRange        // IndexOutOfRangeException on an array index
    | InvalidCodePoint(cp: int) // ArgumentOutOfRangeException from char.ConvertFromUtf32
    | DecodeFailed           // DecoderFallbackException thrown when TryGetChars fails
    | NoProgress             // the decode loop would never advance
    | CannotSeek             // InvalidOperationException on a non-seekable stream
    | BufferTooSmall         // ArgumentException: a read asks for more bytes than its buffer holds
    | ValueOutOfRange        // ArgumentOutOfRangeException on a value outside its documented range
    | NotImplemented         // NotImplementedException

  datatype Result<+T> = Ok(value: T) | Err(error: Error) {
    predicate IsFailure() {
      Err?
    }

    function PropagateFailure<U>(): Result<U>
      requires Err?
    {
      Err(error)
    }

    function Extract(): T
      requires Ok?
    {
      value
    }
  }

  function Min(a: int, b: int): int {
    if a <= b then a else b
  }

  function Max(a: int, b: int): int {
    if a <= b then b else a
  }

  /**
    A C# `int` result of unchecked arithmetic: the one value in the 32-bit
    signed range that agrees with `x` modulo 2^32.
   */
  function WrapInt32(x: int): (r: int)
    ensures -0x8000_0000 <= r < 0x8000_0000
    ensures (x - r) % 0x1_0000_0000 == 0
    ensures -0x8000_0000 <= x < 0x8000_0000 ==> r == x
  {
    (x + 0x8000_0000) % 0x1_0000_0000 - 0x8000_0000
  }

  lemma MulAtLeast(d: int, k: int)
    requires d > 0 && k >= 1
    ensures d * k >= d
  {
    assert d * k == d + d * (k - 1);
  }

  lemma MulSucc(a: int, b: int)
    ensures a * b + b == (a + 1) * b
  {
  }

  /** `n` cells of length `len` with a separator of length `sep` between each two. */
  lemma StrideProduct(n: int, len: int, sep: int)
    ensures (n - 1) * (len + sep) + len == n * len + (n - 1) * sep
  {
  }

  /** The remainder is the unique `r` with `x == d * q + r` and `0 <= r < d`. */
  lemma ModUnique(x: int, d: int, q: int, r: int)
    requires 0 <= r < d && x == d * q + r
    ensures x % d == r
  {
    var q' := x / d;
    var r' := x % d;
    assert x == d * q' + r';
    assert d * q - d * q' == d * (q - q');
    assert d * q' - d * q == d * (q' - q);
    if q > q' {
      MulAtLeast(d, q - q');
    } else if q < q' {
      MulAtLeast(d, q' - q);
    }
  }

  /** `new string(c, n)` and `StringBuilder.Append(c, n)` for a count that is not negative. */
  function Repeat(c: CodeUnit, n: nat): (r: Utf16)
    ensures |r| == n
    ensures forall i :: 0 <= i < n ==> r[i] == c
  {
    seq(n, _ => c)
  }

  /**
    Cells appended one after another with `separator` before every cell but
    the first, as the row printers' loops do.
   */
  function Join(cells: seq<Utf16>, separator: Utf16): Utf16
  {
    if |cells| == 0 then []
    else if |cells| == 1 then cells[0]
    else Join(cells[..|cells| - 1], separator) + separator + cells[|cells| - 1]
  }

  /** Where cell `i` starts in a join of cells `stride` apart: `i * stride`, counted one cell at a time. */
  function Offset(i: nat, stride: nat): nat {
    if i == 0 then 0 else Offset(i - 1, stride) + stride
  }

  lemma {:induction false} OffsetIsProduct(i: nat, stride: nat)
    ensures Offset(i, stride) == i * stride
  {
    if i > 0 {
      OffsetIsProduct(i - 1, stride);
      assert (i - 1) * stride + stride == i * stride;
    }
  }

  /** When all cells have length `len`, the join ends one cell after the start of its last cell. */
  lemma {:induction false} JoinLength(cells: seq<Utf16>, separator: Utf16, len: nat)
    requires |cells| >= 1
    requires forall i :: 0 <= i < |cells| ==> |cells[i]| == len
    ensures |Join(cells, separator)| == Offset(|cells| - 1, len + |separator|) + len
  {
    if |cells| > 1 {
      JoinLength(cells[..|cells| - 1], separator, len);
    }
  }

  /** `cell` occurs in `s` starting at index `k`. */
  predicate CellAt(s: Utf16, k: int, cell: Utf16) {
    0 <= k && k + |cell| <= |s| && s[k..k + |cell|] == cell
  }

  /** When all cells have length `len`, cell `i` sits at `Offset(i, len + |separator|)`. */
  lemma {:induction false} JoinCell(cells: seq<Utf16>, separator: Utf16, len: nat, i: nat)
    requires i < |cells|
    requires forall k :: 0 <= k < |cells| ==> |cells[k]| == len
    ensures CellAt(Join(cells, separator), Offset(i, len + |separator|), cells[i])
    decreases |cells|
  {
    var n := |cells|;
    var stride := len + |separator|;
    JoinLength(cells, separator, len);
    if n > 1 {
      var front := cells[..n - 1];
      var j := Join(front, separator);
      JoinLength(front, separator, len);
      assert Join(cells, separator) == j + (separator + cells[n - 1]);
      if i < n - 1 {
        JoinCell(front, separator, len, i);
        SliceOfFront(j, separator + cells[n - 1], Offset(i, stride), len);
      } else {
        assert j + (separator + cells[n - 1]) == (j + separator) + cells[n - 1];
        SliceOfBack(j + separator, cells[n - 1]);
      }
    }
  }

  /** Every cell of a join of cells of one length, at its offset. */
  lemma JoinUniform(cells: seq<Utf16>, separator: Utf16, len: nat)
    requires |cells| >= 1
    requires forall i :: 0 <= i < |cells| ==> |cells[i]| == len
    ensures |Join(cells, separator)| == Offset(|cells| - 1, len + |separator|) + len
    ensures forall i: nat :: i < |cells| ==> CellAt(Join(cells, separator), Offset(i, len + |separator|), cells[i])
  {
    JoinLength(cells, separator, len);
    forall i: nat | i < |cells|
      ensures CellAt(Join(cells, separator), Offset(i, len + |separator|), cells[i])
    {
      JoinCell(cells, separator, len, i);
    }
  }

  lemma SliceOfFront(a: Utf16, b: Utf16, k: nat, len: nat)
    requires k + len <= |a|
    ensures (a + b)[k..k + len] == a[k..k + len]
  {
  }

  lemma SliceOfBack(a: Utf16, b: Utf16)
    ensures (a + b)[|a|..|a| + |b|] == b
  {
  }

  /** Adjacent slices of a byte sequence concatenate. */
  lemma SliceConcat(s: seq<Byte>, i: nat, j: nat, k: nat)
    requires i <= j <= k <= |s|
    ensures s[i..j] + s[j..k] == s[i..k]
  {
  }

  /** The length of a join of cells of one length, as a product. */
  lemma JoinUniformLength(cells: seq<Utf16>, separator: Utf16, len: nat)
    requires |cells| >= 1
    requires forall i :: 0 <= i < |cells| ==> |cells[i]| == len
    ensures |Join(cells, separator)| == |cells| * len + (|cells| - 1) * |separator|
  {
    JoinLength(cells, separator, len);
    OffsetIsProduct(|cells| - 1, len + |separator|);
    StrideProduct(|cells|, len, |separator|);
  }

  // ---------------------------------------------------------------------
  // Hexadecimal digits, as `{b:X2}` and `{n:X8}` format them.

  /** An upper-case hexadecimal digit. */
  function HexDigit(d: int): (c: CodeUnit)
    requires 0 <= d < 16
  {
    if d < 10 then 0x30 + d else 0x41 + d - 10
  }

  /** The value of an upper-case hexadecimal digit, if `c` is one. */
  function DigitValue(c: CodeUnit): (r: Option<int>)
    ensures r.Some? ==> 0 <= r.value < 16 && HexDigit(r.value) == c
  {
    if 0x30 <= c <= 0x39 then Some(c - 0x30)
    else if 0x41 <= c <= 0x46 then Some(c - 0x41 + 10)
    else None
  }

  function Pow16(k: nat): (r: nat)
    ensures r >= 1
  {
    if k == 0 then 1 else 16 * Pow16(k - 1)
  }

  /** The last `width` hexadecimal digits of `n`, zero-padded on the left. */
  function HexDigits(n: nat, width: nat): (r: Utf16)
    ensures |r| == width
  {
    if width == 0 then [] else HexDigits(n / 16, width - 1) + [HexDigit(n % 16)]
  }

  /** The value of a string of upper-case hexadecimal digits. */
  function ParseHex(s: Utf16): Option<nat>
  {
    if s == [] then Some(0)
    else
      match (ParseHex(s[..|s| - 1]), DigitValue(s[|s| - 1]))
      case (Some(high), Some(low)) => Some(16 * high + low)
      case _ => None
  }

  /** Reading back `width` formatted digits gives the number again. */
  lemma {:induction false} ParseHexDigits(n: nat, width: nat)
    requires n < Pow16(width)
    ensures ParseHex(HexDigits(n, width)) == Some(n)
  {
    if width == 0 {
      assert HexDigits(n, width) == [];
    } else {
      var s := HexDigits(n, width);
      assert s[..|s| - 1] == HexDigits(n / 16, width - 1);
      assert s[|s| - 1] == HexDigit(n % 16);
      assert n / 16 < Pow16(width - 1);
      ParseHexDigits(n / 16, width - 1);
      assert DigitValue(HexDigit(n % 16)) == Some(n % 16);
    }
  }
}

=== FILE: cell_width.dfy ===
/**
  Terminal cell widths (`CharData.LengthInBufferCells`): a UTF-16 code unit
  occupies two cells when it lies in one of the East Asian wide ranges of
  Markus Kuhn's `wcwidth.c` (after Unicode Standard Annex #11, East Asian
  Width), one cell otherwise; a string occupies the sum of its units' cells.
 */
module CellWidth {
  import opened Base

  /** The `(uint)` cast of a C# `int`: two's complement wrap-around to 32 bits. */
  function Uint32(x: int): int {
    x % 0x1_0000_0000
  }

  /** The wide test of `LengthInBufferCells(char)`, written as the source writes it. */
  predicate IsWide(c: CodeUnit) {
    c >= 0x1100 &&
      (c <= 0x115F ||                                          // Hangul Jamo initial consonants
       c == 0x2329 || c == 0x232A ||
       (Uint32(c - 0x2E80) <= 0xA4CF - 0x2E80 && c != 0x303F) || // CJK ... Yi
       Uint32(c - 0xAC00) <= 0xD7A3 - 0xAC00 ||                // Hangul Syllables
       Uint32(c - 0xF900) <= 0xFAFF - 0xF900 ||                // CJK Compatibility Ideographs
       Uint32(c - 0xFE10) <= 0xFE19 - 0xFE10 ||                // Vertical forms
       Uint32(c - 0xFE30) <= 0xFE6F - 0xFE30 ||                // CJK Compatibility Forms
       Uint32(c - 0xFF00) <= 0xFF60 - 0xFF00 ||                // Fullwidth Forms
       Uint32(c - 0xFFE0) <= 0xFFE6 - 0xFFE0)
  }

  /** The East Asian wide ranges, inclusive at both ends, as a plain table. */
  const WIDE_RANGES: seq<(int, int)> := [
    (0x1100, 0x115F),
    (0x2329, 0x232A),
    (0x2E80, 0x303E),
    (0x3040, 0xA4CF),
    (0xAC00, 0xD7A3),
    (0xF900, 0xFAFF),
    (0xFE10, 0xFE19),
    (0xFE30, 0xFE6F),
    (0xFF00, 0xFF60),
    (0xFFE0, 0xFFE6)
  ]

  predicate InRange(c: int, k: nat)
    requires k < |WIDE_RANGES|
  {
    WIDE_RANGES[k].0 <= c <= WIDE_RANGES[k].1
  }

  predicate InWideRanges(c: int) {
    exists k: nat :: k < |WIDE_RANGES| && InRange(c, k)
  }

  /** The unsigned-difference idiom is a range test for code units. */
  lemma UnsignedRangeTest(c: CodeUnit, lo: int, hi: int)
    requires 0 <= lo <= hi < 0x1_0000
    ensures Uint32(c - lo) <= hi - lo <==> lo <= c <= hi
  {
    if c < lo {
      assert Uint32(c - lo) == c - lo + 0x1_0000_0000;
    }
  }

  /** The wide test accepts exactly the code units of the range table. */
  lemma WideIffListed(c: CodeUnit)
    ensures IsWide(c) <==> InWideRanges(c)
  {
    UnsignedRangeTest(c, 0x2E80, 0xA4CF);
    UnsignedRangeTest(c, 0xAC00, 0xD7A3);
    UnsignedRangeTest(c, 0xF900, 0xFAFF);
    UnsignedRangeTest(c, 0xFE10, 0xFE19);
    UnsignedRangeTest(c, 0xFE30, 0xFE6F);
    UnsignedRangeTest(c, 0xFF00, 0xFF60);
    UnsignedRangeTest(c, 0xFFE0, 0xFFE6);
    if IsWide(c) {
      if c <= 0x115F { assert InRange(c, 0); }
      else if c <= 0x232A { assert InRange(c, 1); }
      else if c <= 0x303E { assert InRange(c, 2); }
      else if c <= 0xA4CF { assert InRange(c, 3); }
      else if c <= 0xD7A3 { assert InRange(c, 4); }
      else if c <= 0xFAFF { assert InRange(c, 5); }
      else if c <= 0xFE19 { assert InRange(c, 6); }
      else if c <= 0xFE6F { assert InRange(c, 7); }
      else if c <= 0xFF60 { assert InRange(c, 8); }
      else { assert InRange(c, 9); }
    }
    if InWideRanges(c) {
      var k: nat :| k < |WIDE_RANGES| && InRange(c, k);
      assert IsWide(c);
    }
  }

  /** `LengthInBufferCells(char)` */
  function UnitWidth(c: CodeUnit): (w: nat)
    ensures w == 1 || w == 2
    ensures c < 0x1100 || c == 0x303F ==> w == 1
    ensures w == 2 <==> InWideRanges(c)
  {
    WideIffListed(c);
    1 + (if IsWide(c) then 1 else 0)
  }

  /** `LengthInBufferCells(string)`: the sum of the units' widths. */
  function Width(s: Utf16): (w: nat)
    ensures |s| <= w <= 2 * |s|
  {
    if s == [] then 0 else UnitWidth(s[0]) + Width(s[1..])
  }

  /** Width is additive over concatenation. */
  lemma {:induction false} WidthAppend(a: Utf16, b: Utf16)
    ensures Width(a + b) == Width(a) + Width(b)
  {
    if a == [] {
      assert a + b == b;
    } else {
      assert (a + b)[1..] == a[1..] + b;
      WidthAppend(a[1..], b);
    }
  }

  /** A string of spaces is as wide as it is long. */
  lemma {:induction false} WidthOfSpaces(n: nat)
    ensures Width(Repeat(SPACE, n)) == n
  {
    if n > 0 {
      assert Repeat(SPACE, n)[1..] == Repeat(SPACE, n - 1);
      WidthOfSpaces(n - 1);
    }
  }

  /** A join of cells of one width `w` ends one cell after its last cell starts, counted in terminal cells. */
  lemma {:induction false} JoinWidth(cells: seq<Utf16>, separator: Utf16, w: nat)
    requires |cells| >= 1
    requires forall i :: 0 <= i < |cells| ==> Width(cells[i]) == w
    ensures Width(Join(cells, separator)) == Offset(|cells| - 1, w + Width(separator)) + w
    decreases |cells|
  {
    var n := |cells|;
    if n > 1 {
      var front := cells[..n - 1];
      var j := Join(front, separator);
      assert Join(cells, separator) == j + separator + cells[n - 1];
      JoinWidth(front, separator, w);
      WidthAppend(j, separator);
      WidthAppend(j + separator, cells[n - 1]);
    }
  }
}

=== FILE: char_data.dfy ===
/**
  `CharData`: one byte of the dump together with what decoding made of it,
  its position arithmetic (`Row`, `Col`) and its rendering as a fixed number of
  terminal cells (`RawString`, `GetDisplayString`).
 */
module Units {
  import opened Base
  import opened CharTypes
  import opened Unicode
  import opened CellWidth

  /**
    One unit per input byte. `codePoint` is the decoded scalar for a byte that
    starts a character, `-j` for the `j`-th continuation byte of a multi-byte
    character, and the byte value itself for an undecodable byte.
   */
  datatype CharData = CharData(b: Byte, codePoint: int, filled: bool, kind: CharType)

  /** `default(CharData)`: the content of a slot nothing was written to. */
  const UNFILLED: CharData := CharData(0, 0, false, EMPTY)

  /** The bytes of a unit sequence, in order. */
  function Bytes(units: seq<CharData>): (bs: seq<Byte>)
    ensures |bs| == |units|
  {
    seq(|units|, i requires 0 <= i < |units| => units[i].b)
  }

  lemma BytesAppend(a: seq<CharData>, b: seq<CharData>)
    ensures Bytes(a + b) == Bytes(a) + Bytes(b)
  {
  }

  // ---------------------------------------------------------------------
  // Position arithmetic. The masks `& 0x0F` and `& 0x7FFFFFF0` of a 64-bit
  // two's complement value are the Euclidean remainders written below.

  /** `Col`: the slot of a position within its row. */
  function Col(position: int): (c: int)
    ensures 0 <= c <= 15
    ensures (position - c) % 16 == 0
  {
    position % 16
  }

  /** `Row`: the 16-aligned row offset of a position, kept to 31 bits. */
  function RowBase(position: int): (r: int)
    ensures 0 <= r <= 0x7FFF_FFF0 && r % 16 == 0
    ensures 0 <= position <= INT_MAX ==> r + Col(position) == position
  {
    position % 0x8000_0000 - position % 16
  }

  /** A row offset is a fixed point of `RowBase`, and the row of a position is that of its row offset. */
  lemma RowBaseAligned(position: int)
    ensures RowBase(position - Col(position)) == RowBase(position)
    ensures RowBase(RowBase(position)) == RowBase(position)
  {
    var m := position % 0x8000_0000;
    var q := position / 0x8000_0000;
    var c := position % 16;
    var k := m / 16;
    // m and position agree modulo 16, because 0x8000_0000 is a multiple of 16
    assert position == 16 * (0x800_0000 * q + k) + m % 16;
    ModUnique(position, 16, 0x800_0000 * q + k, m % 16);
    assert m - c == 16 * k;
    ModUnique(position - c, 0x8000_0000, q, m - c);
    ModUnique(position - c, 16, 0x800_0000 * q + k, 0);
    ModUnique(m - c, 0x8000_0000, 0, m - c);
    ModUnique(m - c, 16, k, 0);
  }

  // ---------------------------------------------------------------------
  // Rendering.

  const CARET: CodeUnit := 0x5E
  const NULL_LETTER: Utf16 := [SPACE, SPACE]
  const NON_LETTER: Utf16 := [0x2E, 0x2E]
  /** "←─" */
  const CONTINUTION_LETTER: Utf16 := [0x2190, 0x2500]

  lemma SurrogateIsNarrow(c: CodeUnit)
    requires IsSurrogate(c)
    ensures UnitWidth(c) == 1
  {
    UnsignedRangeTest(c, 0xAC00, 0xD7A3);
    UnsignedRangeTest(c, 0xF900, 0xFAFF);
  }

  /** A scalar's UTF-16 string is at most two cells wide. */
  lemma EncodedWidth(cp: int)
    requires IsScalar(cp)
    ensures Width(Encode(cp)) <= 2
  {
    var s := Encode(cp);
    if |s| == 2 {
      SurrogateIsNarrow(s[0]);
      SurrogateIsNarrow(s[1]);
      assert s[1..][1..] == [];
    }
  }

  /** `RawString`: the code point as a string; empty for a code point that is not positive. */
  function RawString(u: CharData): (r: Result<Utf16>)
    ensures u.codePoint <= 0 ==> r == Ok([])
    ensures u.codePoint > 0 ==> (r.Ok? <==> IsScalar(u.codePoint))
    ensures u.codePoint > 0 && r.Ok? ==> |r.value| >= 1 && ToUtf32(r.value) == u.codePoint
  {
    if u.codePoint > 0 then FromUtf32(u.codePoint) else Ok([])
  }

  /** The switch of `GetDisplayString`, before padding. */
  function NaturalDisplay(u: CharData, showLatin1: bool): (r: Result<Utf16>)
    ensures r.Err? <==> u.filled && u.codePoint > 0xFF && !IsScalar(u.codePoint)
    ensures r.Ok? ==> 1 <= |r.value| <= 2 && Width(r.value) <= 2
    ensures u.filled && u.codePoint > 0xFF && r.Ok? ==> ToUtf32(r.value) == u.codePoint
  {
    var cp := u.codePoint;
    if !u.filled then Ok(NULL_LETTER)
    else if cp < 0 then Ok(CONTINUTION_LETTER)
    else if cp < 0x20 then Ok([CARET, cp + 0x40])
    else if cp < 0x7F then Ok([cp])
    else if cp == 0x7F then Ok([CARET, cp - 0x40])
    else if cp <= 0x9F then Ok(if showLatin1 then [CARET, cp + 0x40] else NON_LETTER)
    else if cp <= 0xFF then Ok(if showLatin1 then [cp] else NON_LETTER)
    else
      var s :- FromUtf32(cp);
      EncodedWidth(cp);
      Ok(s)
  }

  /**
    The padding of `GetDisplayString`: spaces up to `cellLength` cells; a string
    that is already as wide is returned unchanged.
   */
  function Pad(s: Utf16, cellLength: int): (r: Utf16)
    ensures |r| >= |s| && r[..|s|] == s
    ensures forall i :: |s| <= i < |r| ==> r[i] == SPACE
    ensures |r| - |s| == Max(0, cellLength - Width(s))
    ensures Width(r) == Max(Width(s), cellLength)
  {
    var w := Width(s);
    if w < cellLength then
      var r := s + Repeat(SPACE, cellLength - w);
      WidthAppend(s, Repeat(SPACE, cellLength - w));
      WidthOfSpaces(cellLength - w);
      r
    else s
  }

  /** `GetDisplayString(showLaten1, cellLength)` */
  function GetDisplayString(u: CharData, showLatin1: bool, cellLength: int): (r: Result<Utf16>)
    ensures r.Ok? <==> NaturalDisplay(u, showLatin1).Ok?
    ensures r.Ok? ==> Width(r.value) == Max(Width(NaturalDisplay(u, showLatin1).value), cellLength)
    ensures r.Ok? && cellLength >= 2 ==> Width(r.value) == cellLength
  {
    var s :- NaturalDisplay(u, showLatin1);
    Ok(Pad(s, cellLength))
  }

  /**
    The code point a displayed cell shows unambiguously: caret notation, a
    printable ASCII character, or, when Latin-1 is shown, a Latin-1 character.
   */
  function DisplayedCodePoint(s: Utf16, showLatin1: bool): Option<int>
  {
    if |s| >= 2 && s[0] == CARET && s[1] == 0x3F then Some(0x7F)
    else if |s| >= 2 && s[0] == CARET && 0x40 <= s[1] <= 0x5F then Some(s[1] - 0x40)
    else if showLatin1 && |s| >= 2 && s[0] == CARET && 0xC0 <= s[1] <= 0xDF then Some(s[1] - 0x40)
    else if |s| >= 1 && 0x20 <= s[0] < 0x7F then Some(s[0] as int)
    else if showLatin1 && |s| >= 1 && 0xA0 <= s[0] <= 0xFF then Some(s[0] as int)
    else None
  }

  /**
    A filled one-byte code point can be read back from its cell exactly when
    it is ASCII or Latin-1 is shown; otherwise the cell is the placeholder "..".
   */
  lemma DisplayReadBack(u: CharData, showLatin1: bool, cellLength: int)
    requires u.filled && 0 <= u.codePoint <= 0xFF
    ensures GetDisplayString(u, showLatin1, cellLength).Ok?
    ensures u.codePoint <= 0x7F || showLatin1 ==>
              DisplayedCodePoint(GetDisplayString(u, showLatin1, cellLength).value, showLatin1) == Some(u.codePoint)
    ensures u.codePoint >= 0x80 && !showLatin1 ==>
              GetDisplayString(u, showLatin1, cellLength).value[..2] == NON_LETTER
  {
    var s := NaturalDisplay(u, showLatin1).value;
    var r := Pad(s, cellLength);
    assert r[..|s|] == s;
    assert r[0] == s[0];
    if |s| == 2 {
      assert r[1] == s[1];
    }
  }

  /**
    Every continuation unit, whatever its byte and however deep in its
    character, renders as the arrow "←─" followed by the padding to the cell
    length.
   */
  lemma ContinuationDisplay(u: CharData, showLatin1: bool, cellLength: int)
    requires u.filled && u.codePoint < 0
    ensures GetDisplayString(u, showLatin1, cellLength) ==
              Ok(CONTINUTION_LETTER + Repeat(SPACE, Max(0, cellLength - 2)))
  {
    assert Width(CONTINUTION_LETTER) == 2 by {
      assert CONTINUTION_LETTER[1..][1..] == [];
    }
    assert CONTINUTION_LETTER + Repeat(SPACE, 0) == CONTINUTION_LETTER;
  }

  /** A slot nothing was written to renders as blanks, at least two of them. */
  lemma UnfilledDisplay(u: CharData, showLatin1: bool, cellLength: int)
    requires !u.filled
    ensures GetDisplayString(u, showLatin1, cellLength) == Ok(Repeat(SPACE, Max(2, cellLength)))
  {
    assert Width(NULL_LETTER) == 2 by {
      assert NULL_LETTER[1..][1..] == [];
    }
    if cellLength > 2 {
      assert NULL_LETTER + Repeat(SPACE, cellLength - 2) == Repeat(SPACE, cellLength);
    } else {
      assert NULL_LETTER == Repeat(SPACE, 2);
    }
  }
}

=== FILE: char_type.dfy ===
/**
  The `CharType` bit-flag enumeration of a decoded byte, and the closed set of
  roles its named values stand for.
 */
module CharTypes {
  import opened Base

  /** `enum CharType : byte` with `[Flags]`: any byte value is a `CharType`. */
  type CharType = bv8

  const EMPTY: CharType := 0
  const BINARY: CharType := 0x01
  const CHAR: CharType := 0x02
  const SINGLE_BYTE_CHAR: CharType := 0x04 | CHAR
  const MULTI_BYTE_CHAR: CharType := 0x08 | CHAR
  const CONTINUTION_BYTE: CharType := 0x10
  const FIRST: CharType := 0x20
  const CONTINUTION_FIRST_BYTE: CharType := CONTINUTION_BYTE | FIRST
  const LAST: CharType := 0x40
  const CONTINUTION_FIRST_AND_LAST_BYTE: CharType := CONTINUTION_BYTE | FIRST | LAST
  const CONTINUTION_LAST_BYTE: CharType := CONTINUTION_BYTE | LAST

  /** Whether every bit of `flag` is set in `t`. */
  predicate HasFlag(t: CharType, flag: CharType) {
    t & flag == flag
  }

  /**
    The role a byte plays, one per named composite value of the enumeration;
    a continuation byte that is neither the first nor the last one carries the
    bare `ContinutionByte` value.
   */
  datatype Role =
    | Empty
    | Binary
    | SingleByteChar
    | MultiByteChar
    | ContinuationMiddle
    | ContinuationFirst
    | ContinuationFirstAndLast
    | ContinuationLast
  {
    /** Roles that carry a renderable code point. */
    predicate IsChar() {
      this == SingleByteChar || this == MultiByteChar
    }

    predicate IsContinuation() {
      ContinuationMiddle? || ContinuationFirst? || ContinuationFirstAndLast? || ContinuationLast?
    }
  }

  /** The enumeration value of a role, with the inclusions the enumeration is built from. */
  function Flags(r: Role): (t: CharType)
    ensures (t == EMPTY) <==> r == Empty
    ensures HasFlag(t, CHAR) && t != CHAR <==> r.IsChar()
    ensures t & CHAR == 0 <==> !r.IsChar()
    ensures HasFlag(t, CONTINUTION_BYTE) <==> r.IsContinuation()
    ensures r.IsContinuation() ==> t & CHAR == 0 && t & BINARY == 0
    ensures HasFlag(t, BINARY) <==> r == Binary
  {
    match r
    case Empty => EMPTY
    case Binary => BINARY
    case SingleByteChar => SINGLE_BYTE_CHAR
    case MultiByteChar => MULTI_BYTE_CHAR
    case ContinuationMiddle => CONTINUTION_BYTE
    case ContinuationFirst => CONTINUTION_FIRST_BYTE
    case ContinuationFirstAndLast => CONTINUTION_FIRST_AND_LAST_BYTE
    case ContinuationLast => CONTINUTION_LAST_BYTE
  }

  /** The role a flag value names, if it is one of the named composite values. */
  function RoleOf(t: CharType): (r: Option<Role>)
    ensures r.Some? ==> Flags(r.value) == t
    ensures r.None? ==> forall role: Role :: Flags(role) != t
  {
    if t == EMPTY then Some(Empty)
    else if t == BINARY then Some(Binary)
    else if t == SINGLE_BYTE_CHAR then Some(SingleByteChar)
    else if t == MULTI_BYTE_CHAR then Some(MultiByteChar)
    else if t == CONTINUTION_BYTE then Some(ContinuationMiddle)
    else if t == CONTINUTION_FIRST_BYTE then Some(ContinuationFirst)
    else if t == CONTINUTION_FIRST_AND_LAST_BYTE then Some(ContinuationFirstAndLast)
    else if t == CONTINUTION_LAST_BYTE then Some(ContinuationLast)
    else None
  }

  /** Reading a role's value back gives the role: the named values are pairwise distinct. */
  lemma RoleRoundTrip(r: Role)
    ensures RoleOf(Flags(r)) == Some(r)
  {
  }

  /** `ContinutionFirstAndLastByte` is the union of the first and the last continuation values. */
  lemma FirstAndLastIsUnion()
    ensures CONTINUTION_FIRST_AND_LAST_BYTE == CONTINUTION_FIRST_BYTE | CONTINUTION_LAST_BYTE
    ensures Flags(ContinuationFirstAndLast) == Flags(ContinuationFirst) | Flags(ContinuationLast)
  {
  }
}

=== FILE: colors.dfy ===
/**
  `Color`: the background colour a cell of the dump is painted with. The
  escape sequence itself (`RGB.FromHLS(...).ToTermBg()`) is kept symbolic as
  the HLS triple it is computed from; only the range checks that decide
  whether it throws are modelled.
 */
module Colors {
  import opened Base
  import opened CharTypes
  import opened Units
  import opened Decoding

  /** A background escape sequence for an HLS colour, or `string.Empty` (no colour). */
  datatype Escape = Background(hue: int, lightness: int, saturation: int) | NoColor

  /** The default lightness and saturation of `GetFromHLS`. */
  const LIGHTNESS: int := 40
  const SATURATION: int := 60

  /** `GetFromHLS(h, l, s)`: hue 0-360, lightness and saturation 0-100, or `ArgumentOutOfRangeException`. */
  function GetFromHLS(h: int, l: int, s: int): (r: Result<Escape>)
    ensures r.Ok? <==> 0 <= h <= 360 && 0 <= l <= 100 && 0 <= s <= 100
    ensures r.Err? ==> r.error == ValueOutOfRange
    ensures r.Ok? ==> r.value.Background? && r.value.hue == h && r.value.lightness == l && r.value.saturation == s
  {
    if h > 360 || h < 0 then Err(ValueOutOfRange)
    else if l > 100 || l < 0 then Err(ValueOutOfRange)
    else if s > 100 || s < 0 then Err(ValueOutOfRange)
    else Ok(Background(h, l, s))
  }

  // ---------------------------------------------------------------------
  // Colour by byte value.

  /**
    `(int)(b * 360.0 / 0xFF)`: the hue a byte maps to, the floor of the exact
    quotient. The double arithmetic agrees with it: where the quotient is an
    integer it is computed exactly, and elsewhere it is at least 1/255 away
    from the next integer, far more than the rounding error.
   */
  function ByteHue(b: Byte): (h: int)
    ensures 0 <= h <= 360
    ensures 255 * h <= 360 * b < 255 * (h + 1)
  {
    b * 360 / 255
  }

  /** The byte a hue was computed from: the smallest byte whose scaled value reaches the hue. */
  function HueByte(h: int): int {
    (255 * h + 359) / 360
  }

  /** Distinct bytes get distinct hues: reading a byte's hue back gives the byte. */
  lemma ByteHueRoundTrip(b: Byte)
    ensures HueByte(ByteHue(b)) == b
  {
    var h := ByteHue(b);
    var k := HueByte(h);
    assert 360 * k <= 255 * h + 359 < 360 * (k + 1);
    // 360 * b - 255 < 255 * h <= 360 * b, so 255 * h + 359 lies in [360 * b, 360 * b + 359).
    assert 360 * b <= 255 * h + 359 < 360 * (b + 1);
  }

  /** The hue grows with the byte, from red at 0 round to red again at 255. */
  lemma ByteHueOrder(a: Byte, b: Byte)
    requires a < b
    ensures ByteHue(a) < ByteHue(b)
    ensures ByteHue(0) == 0 && ByteHue(255) == 360
  {
    var ha := ByteHue(a);
    var hb := ByteHue(b);
    assert 360 * a + 360 <= 360 * b;
    assert 255 * ha + 360 < 255 * (hb + 1);
  }

  /** `GetColorFromByte(b, l, s)`: the byte's hue with the given lightness and saturation. */
  function GetColorFromByte(b: Byte, l: int, s: int): (r: Result<Escape>)
    ensures r.Ok? <==> 0 <= l <= 100 && 0 <= s <= 100
    ensures r.Ok? ==> r.value.Background? && HueByte(r.value.hue) == b
  {
    ByteHueRoundTrip(b);
    GetFromHLS(ByteHue(b), l, s)
  }

  // ---------------------------------------------------------------------
  // Colour by Unicode category.

  /**
    A `UnicodeCategory` value: there are 30 of them, numbered 0 to 29; the last
    is `OtherNotAssigned`, the category of every unassigned code point.
   */
  type Category = c: int | 0 <= c < 30

  /**
    `(int)Math.Ceiling(uc / 29.0 * 360.0)`: the ceiling of the exact value.
    Since 29 is prime and does not divide 360, the exact value is an integer
    only for categories 0 and 29, where the double arithmetic is exact too, and
    elsewhere it is at least 1/29 from an integer, so rounding in double
    arithmetic cannot move the ceiling. The divisor counts 29 categories, so
    `OtherNotAssigned` gets hue 360, the same colour as hue 0.
   */
  function CategoryHue(uc: Category): (h: int)
    ensures 0 <= h <= 360
    ensures h == 360 <==> uc == 29
    ensures 29 * (h - 1) < 360 * uc <= 29 * h
  {
    (uc * 360 + 28) / 29
  }

  /** The category a hue was computed from. */
  function HueCategory(h: int): int {
    29 * h / 360
  }

  /** Distinct categories get distinct hues: reading a category's hue back gives the category. */
  lemma CategoryHueRoundTrip(uc: Category)
    ensures HueCategory(CategoryHue(uc)) == uc
  {
    var h := CategoryHue(uc);
    var k := HueCategory(h);
    assert 360 * k <= 29 * h < 360 * (k + 1);
    assert 360 * uc <= 29 * h < 360 * uc + 29;
  }

  /** `GetFromUnicodeCategory(uc)`: no colour for a missing category, otherwise the category's hue at the defaults. */
  function GetFromUnicodeCategory(uc: Option<Category>): (r: Result<Escape>)
    ensures r.Ok?
    ensures r.value == NoColor <==> uc.None?
    ensures uc.Some? ==> r.value.lightness == LIGHTNESS && r.value.saturation == SATURATION &&
                         HueCategory(r.value.hue) == uc.value
  {
    if uc.None? then Ok(NoColor)
    else
      CategoryHueRoundTrip(uc.value);
      GetFromHLS(CategoryHue(uc.value), LIGHTNESS, SATURATION)
  }

  // ---------------------------------------------------------------------
  // Colour by character type.

  /** `GetFromCharType(charType, codePoint)` */
  function GetFromCharType(t: CharType, cp: int): (r: Result<Escape>)
    ensures r.Ok?
    ensures r.value == NoColor <==> RoleOf(t).None? || RoleOf(t) == Some(Empty)
    ensures r.value.Background? ==> r.value.lightness == LIGHTNESS
  {
    if t == BINARY then GetFromHLS(0, LIGHTNESS, 0)
    else if t == SINGLE_BYTE_CHAR then
      if cp < 0x20 || cp == 0x7F then GetFromHLS(120, LIGHTNESS, SATURATION)
      else if cp < 0x7F then GetFromHLS(210, LIGHTNESS, SATURATION)
      else if cp < 0xA0 then GetFromHLS(90, LIGHTNESS, SATURATION)
      else GetFromHLS(270, LIGHTNESS, SATURATION)
    else if t == MULTI_BYTE_CHAR || t == CONTINUTION_BYTE || t == CONTINUTION_FIRST_BYTE ||
            t == CONTINUTION_FIRST_AND_LAST_BYTE || t == CONTINUTION_LAST_BYTE then
      GetFromHLS(240, LIGHTNESS, SATURATION)
    else Ok(NoColor)
  }

  /** The colour of each role: gray for undecodable bytes, one blue for every byte of a multi-byte character. */
  lemma RoleColors(role: Role, cp: int)
    ensures role == Binary ==> GetFromCharType(Flags(role), cp) == Ok(Background(0, LIGHTNESS, 0))
    ensures role == MultiByteChar || role.IsContinuation() ==>
              GetFromCharType(Flags(role), cp) == Ok(Background(240, LIGHTNESS, SATURATION))
    ensures role == SingleByteChar ==> GetFromCharType(Flags(role), cp).value.saturation == SATURATION
  {
  }

  /** Every byte of a multi-byte character, lead and continuations, has the same colour. */
  lemma CharacterColoredAlike(b: Byte, cp: int, n: int, c: Byte, j: int)
    requires 1 <= j < n
    ensures GetFromCharType(ContinuationUnit(c, j, n).kind, -j) == GetFromCharType(LeadUnit(b, cp, n).kind, cp)
  {
    RoleColors(ContinuationRole(j, n), -j);
    RoleColors(MultiByteChar, cp);
  }

  /**
    A filled single-byte character's colour tells how its cell displays:
    green for caret notation (a printable `^` is cyan like its neighbours), cyan for a printable ASCII character, and,
    outside ASCII, yellow-green where Latin-1 display uses caret notation
    and purple where it shows the character itself; neither of the last two
    is shown when Latin-1 is not.
   */
  lemma ColorMatchesDisplay(u: CharData)
    requires u.filled && u.kind == SINGLE_BYTE_CHAR && 0 <= u.codePoint <= 0xFF
    ensures var hue := GetFromCharType(u.kind, u.codePoint).value.hue;
            && (hue == 120 <==> |NaturalDisplay(u, false).value| == 2 && NaturalDisplay(u, false).value[0] == CARET)
            && (hue == 210 <==> NaturalDisplay(u, false) == Ok([u.codePoint]))
            && (hue == 90 || hue == 270 <==> NaturalDisplay(u, false) == Ok(NON_LETTER))
            && (hue == 90 <==> u.codePoint >= 0x80 && |NaturalDisplay(u, true).value| == 2 && NaturalDisplay(u, true).value[0] == CARET)
            && (hue == 270 <==> u.codePoint >= 0x80 && NaturalDisplay(u, true) == Ok([u.codePoint]))
  {
  }
}

=== FILE: config.dfy ===
/**
  `Config` and `ColorType`: the dump settings. Every validated setter keeps
  its property within its documented range, so every configuration reachable
  from the default satisfies `Valid`, and `Clone` (which copies through the
  setters) succeeds on exactly those and returns an equal configuration.
 */
module Configuration {
  import opened Base

  /** `enum ColorType`: how the dump is coloured; `Uncolored` is the enumeration's `None`. */
  datatype ColorType = Uncolored | ByByte | ByCharType | ByUnicodeCategory

  /** The enumeration value of a colour type. */
  function ColorTypeValue(t: ColorType): (v: int)
    ensures 0 <= v <= 3
    ensures (v == 0) <==> t == Uncolored
  {
    if t.Uncolored? then 0
    else if t.ByByte? then 1
    else if t.ByCharType? then 2
    else 3
  }

  /** The colour type an enumeration value names, if it names one. */
  function ColorTypeOf(v: int): (r: Option<ColorType>)
    ensures r.Some? <==> 0 <= v <= 3
  {
    if v == 0 then Some(Uncolored)
    else if v == 1 then Some(ByByte)
    else if v == 2 then Some(ByCharType)
    else if v == 3 then Some(ByUnicodeCategory)
    else Option.None
  }

  /** Enumeration values and colour types correspond one to one. */
  lemma ColorTypeRoundTrip(t: ColorType, v: int)
    ensures ColorTypeOf(ColorTypeValue(t)) == Some(t)
    ensures ColorTypeOf(v).Some? ==> ColorTypeValue(ColorTypeOf(v).value) == v
  {
  }

  /** The code page of `Encoding.UTF8`. */
  const UTF8_CODE_PAGE: int := 65001

  /**
    The settings. The encoding is identified by its code page; strings and
    characters are UTF-16 code units.
   */
  datatype Config = Config(
    encoding: int,
    colorType: ColorType,
    initialHue: int,
    defaultLightness: int,
    defaultSaturation: int,
    hexColumnSeparator: Utf16,
    charColumnSeparator: Utf16,
    nullLetter: CodeUnit,
    nonLetter: CodeUnit,
    continuationLetters: Utf16,
    asciiControlLetters: Utf16)

  /** The ranges the setters enforce. */
  predicate Valid(c: Config) {
    && 0 <= c.initialHue <= 360
    && 0 <= c.defaultLightness <= 100
    && 0 <= c.defaultSaturation <= 100
    && |c.continuationLetters| == 3
  }

  /** The control pictures U+2400 to U+2421, one per ASCII control character from NUL on. */
  const ASCII_CONTROL_LETTERS: Utf16 := [
    0x2400, 0x2401, 0x2402, 0x2403, 0x2404, 0x2405, 0x2406, 0x2407,
    0x2408, 0x2409, 0x240A, 0x240B, 0x240C, 0x240D, 0x240E, 0x240F,
    0x2410, 0x2411, 0x2412, 0x2413, 0x2414, 0x2415, 0x2416, 0x2417,
    0x2418, 0x2419, 0x241A, 0x241B, 0x241C, 0x241D, 0x241E, 0x241F,
    0x2420, 0x2421]

  /** The freshly constructed configuration (`new Config()`, also `Config.Default`). */
  const DEFAULT: Config := Config(
    UTF8_CODE_PAGE, Uncolored, 0, 30, 60, [], [], SPACE, 0x2E,
    [0x2190, 0x2500, 0x2500], ASCII_CONTROL_LETTERS)

  /** The default configuration keeps every range, and its control letters are the control pictures in order. */
  lemma DefaultValid()
    ensures Valid(DEFAULT)
    ensures |DEFAULT.asciiControlLetters| == 34
    ensures forall i :: 0 <= i < 34 ==> DEFAULT.asciiControlLetters[i] == 0x2400 + i
  {
  }

  /** The `InitialHue` setter: 0 to 360. */
  function SetInitialHue(c: Config, v: int): (r: Result<Config>)
    ensures r.Ok? <==> 0 <= v <= 360
    ensures r.Err? ==> r.error == ValueOutOfRange
    ensures r.Ok? ==> r.value.initialHue == v && r.value.(initialHue := c.initialHue) == c
    ensures r.Ok? && Valid(c) ==> Valid(r.value)
  {
    if v < 0 || v > 360 then Err(ValueOutOfRange) else Ok(c.(initialHue := v))
  }

  /** The `DefaultLightness` setter: 0 to 100. */
  function SetDefaultLightness(c: Config, v: int): (r: Result<Config>)
    ensures r.Ok? <==> 0 <= v <= 100
    ensures r.Err? ==> r.error == ValueOutOfRange
    ensures r.Ok? ==> r.value.defaultLightness == v && r.value.(defaultLightness := c.defaultLightness) == c
    ensures r.Ok? && Valid(c) ==> Valid(r.value)
  {
    if v < 0 || v > 100 then Err(ValueOutOfRange) else Ok(c.(defaultLightness := v))
  }

  /** The `DefaultSaturation` setter: 0 to 100. */
  function SetDefaultSaturation(c: Config, v: int): (r: Result<Config>)
    ensures r.Ok? <==> 0 <= v <= 100
    ensures r.Err? ==> r.error == ValueOutOfRange
    ensures r.Ok? ==> r.value.defaultSaturation == v && r.value.(defaultSaturation := c.defaultSaturation) == c
    ensures r.Ok? && Valid(c) ==> Valid(r.value)
  {
    if v < 0 || v > 100 then Err(ValueOutOfRange) else Ok(c.(defaultSaturation := v))
  }

  /** The `ContinutionLetters` setter: exactly three letters. */
  function SetContinuationLetters(c: Config, v: Utf16): (r: Result<Config>)
    ensures r.Ok? <==> |v| == 3
    ensures r.Err? ==> r.error == ValueOutOfRange
    ensures r.Ok? ==> r.value.continuationLetters == v && r.value.(continuationLetters := c.continuationLetters) == c
    ensures r.Ok? && Valid(c) ==> Valid(r.value)
  {
    if |v| != 3 then Err(ValueOutOfRange) else Ok(c.(continuationLetters := v))
  }

  /** Setting a validated property back to its old value undoes the change. */
  lemma SetRestores(c: Config, hue: int, lightness: int, saturation: int, letters: Utf16)
    requires Valid(c)
    ensures SetInitialHue(c, hue).Ok? ==> SetInitialHue(SetInitialHue(c, hue).value, c.initialHue) == Ok(c)
    ensures SetDefaultLightness(c, lightness).Ok? ==>
              SetDefaultLightness(SetDefaultLightness(c, lightness).value, c.defaultLightness) == Ok(c)
    ensures SetDefaultSaturation(c, saturation).Ok? ==>
              SetDefaultSaturation(SetDefaultSaturation(c, saturation).value, c.defaultSaturation) == Ok(c)
    ensures SetContinuationLetters(c, letters).Ok? ==>
              SetContinuationLetters(SetContinuationLetters(c, letters).value, c.continuationLetters) == Ok(c)
  {
  }

  /**
    `Clone`: a new configuration with every property assigned from `c`, in
    declaration order, the validated ones through their setters.
   */
  function Clone(c: Config): (r: Result<Config>)
    ensures r.Ok? <==> Valid(c)
    ensures r.Ok? ==> r.value == c
    ensures r.Err? ==> r.error == ValueOutOfRange
  {
    var created := DEFAULT.(encoding := c.encoding, colorType := c.colorType);
    var withHue :- SetInitialHue(created, c.initialHue);
    var withLightness :- SetDefaultLightness(withHue, c.defaultLightness);
    var withSaturation :- SetDefaultSaturation(withLightness, c.defaultSaturation);
    var withLetters := withSaturation.(hexColumnSeparator := c.hexColumnSeparator,
                                       charColumnSeparator := c.charColumnSeparator,
                                       nullLetter := c.nullLetter, nonLetter := c.nonLetter);
    var d :- SetContinuationLetters(withLetters, c.continuationLetters);
    Ok(d.(asciiControlLetters := c.asciiControlLetters))
  }

  /** Cloning a clone gives the same configuration again. */
  lemma CloneIdempotent(c: Config)
    requires Clone(c).Ok?
    ensures Clone(Clone(c).value) == Clone(c)
  {
  }
}

=== FILE: decoding.dfy ===
/**
  `HexDumper.HexDumpCore`: the decode-and-attribute loop. The data is cut into
  windows of at most four bytes; each window is decoded, the bytes the
  fallback kept come back first as undecodable units, and every decoded
  character becomes a lead unit carrying its code point followed by one
  continuation unit per further byte of its encoding. Each input byte ends up
  in exactly one unit.
 */
module Decoding {
  import opened Base
  import opened CharTypes
  import opened Unicode
  import opened Units
  import opened TopBytesFallback

  /** What `Encoding.TryGetChars` does on one window: the fallback calls it makes, in order, and the chars it writes. */
  datatype Decoded = Decoded(calls: seq<FallbackCall>, chars: Utf16)

  /**
    The .NET encoding the dump decodes with, with `TopBytesFallback` installed
    as its decoder fallback: its decoder and its `GetByteCount` of a one-rune
    string, given by the scalar value of the rune.
   */
  datatype Encoding = Encoding(decode: seq<Byte> -> Decoded, getByteCount: int -> int)

  /** The largest window handed to the decoder. */
  const WINDOW: nat := 4

  /** The size of the `chars` array the decoder writes into. */
  const CHARS_CAPACITY: nat := 5

  /** `(byte)enc.GetByteCount(rune)`: the cast keeps the low eight bits. */
  function ByteCount(enc: Encoding, cp: int): (n: int)
    ensures 0 <= n < 256
    ensures 0 <= enc.getByteCount(cp) < 256 ==> n == enc.getByteCount(cp)
  {
    enc.getByteCount(cp) % 256
  }

  /** The window that starts at `p`: `data.Span.Slice(p, Math.Min(4, data.Length - p))`. */
  function Window(data: seq<Byte>, p: nat): (w: seq<Byte>)
    requires p < |data|
    ensures 1 <= |w| <= WINDOW && p + |w| <= |data|
    ensures data[p..p + |w|] == w
    ensures |w| == WINDOW || p + |w| == |data|
  {
    data[p..p + Min(WINDOW, |data| - p)]
  }

  // ---------------------------------------------------------------------
  // Units of one decoded character.

  /** The lead unit of a character: a single-byte character when it takes at most one byte. */
  function LeadUnit(b: Byte, cp: int, n: int): CharData {
    CharData(b, cp, true, Flags(if n <= 1 then SingleByteChar else MultiByteChar))
  }

  /** The role of the `j`-th continuation byte (1 <= j < n) of an `n`-byte character. */
  function ContinuationRole(j: int, n: int): (r: Role)
    requires 1 <= j < n
    ensures r.IsContinuation()
    ensures HasFlag(Flags(r), FIRST) <==> j == 1
    ensures HasFlag(Flags(r), LAST) <==> j == n - 1
  {
    if j == 1 && n == 2 then ContinuationFirstAndLast
    else if j == 1 then ContinuationFirst
    else if j == n - 1 then ContinuationLast
    else ContinuationMiddle
  }

  /** `new CharData(bytes[byteIndex + j], -j, true)` */
  function ContinuationUnit(b: Byte, j: int, n: int): CharData
    requires 1 <= j < n
  {
    CharData(b, -j, true, Flags(ContinuationRole(j, n)))
  }

  /** How a continuation unit `u` follows the unit before it. */
  predicate Follows(prev: CharData, u: CharData) {
    if u.codePoint == -1 then prev.kind == MULTI_BYTE_CHAR else prev.codePoint == u.codePoint + 1
  }

  /**
    The attribution every run of emitted units satisfies: every unit is
    filled, and a unit with code point `-j` follows the unit with code point
    `-(j-1)`, or the multi-byte lead unit when `j` is 1.
   */
  predicate WellFormed(units: seq<CharData>)
    decreases |units|
  {
    if units == [] then true
    else
      var k := |units| - 1;
      WellFormed(units[..k]) && units[k].filled &&
      (units[k].codePoint < 0 ==> k > 0 && Follows(units[k - 1], units[k]))
  }

  /** Every unit of a well-formed run is filled, and the run does not start inside a character. */
  lemma {:induction false} WellFormedAt(units: seq<CharData>, i: nat)
    requires WellFormed(units) && i < |units|
    ensures units[i].filled
    ensures units[i].codePoint < 0 ==> i > 0 && Follows(units[i - 1], units[i])
    decreases |units|
  {
    var k := |units| - 1;
    if i < k {
      WellFormedAt(units[..k], i);
    }
  }

  /** A run cut anywhere is well-formed up to the cut. */
  lemma {:induction false} WellFormedPrefix(units: seq<CharData>, k: nat)
    requires WellFormed(units) && k <= |units|
    ensures WellFormed(units[..k])
    decreases |units|
  {
    if k < |units| {
      var n := |units| - 1;
      WellFormedPrefix(units[..n], k);
      assert units[..n][..k] == units[..k];
    } else {
      assert units[..k] == units;
    }
  }

  lemma {:induction false} WellFormedAppend(a: seq<CharData>, b: seq<CharData>)
    requires WellFormed(a) && WellFormed(b)
    ensures WellFormed(a + b)
    decreases |b|
  {
    if b == [] {
      assert a + b == a;
    } else {
      var k := |b| - 1;
      WellFormedAppend(a, b[..k]);
      assert (a + b)[..|a| + k] == a + b[..k];
      if b[k].codePoint < 0 {
        assert (a + b)[|a| + k - 1] == b[k - 1];
      }
    }
  }

  /** The `j`-th unit of an `n`-byte character whose first byte is at `byteIndex`. */
  function RuneUnit(w: seq<Byte>, byteIndex: nat, cp: int, n: int, j: nat): CharData
    requires byteIndex + Max(n, 1) <= |w| && j < Max(n, 1)
  {
    if j == 0 then LeadUnit(w[byteIndex], cp, n) else ContinuationUnit(w[byteIndex + j], j, n)
  }

  /**
    The units of one character of `n` bytes whose first byte is at
    `byteIndex`: the lead unit, then continuation units `-1 … -(n-1)`. The
    lead unit reads byte `byteIndex` and continuation unit `j` reads byte
    `byteIndex + j`, so the character throws exactly when its last byte lies
    past the window.
   */
  function EmitRune(w: seq<Byte>, byteIndex: nat, cp: int, n: int): (r: Result<seq<CharData>>)
    ensures r.Ok? <==> byteIndex + Max(n, 1) <= |w|
    ensures r.Ok? ==> |r.value| == Max(n, 1)
  {
    if byteIndex + Max(n, 1) > |w| then Err(IndexOutOfRange)
    else Ok(seq(Max(n, 1), j requires 0 <= j < Max(n, 1) => RuneUnit(w, byteIndex, cp, n, j)))
  }

  /** The units of one character are the lead unit and then its continuation units. */
  lemma RuneLayout(w: seq<Byte>, byteIndex: nat, cp: int, n: int)
    requires EmitRune(w, byteIndex, cp, n).Ok?
    ensures var units := EmitRune(w, byteIndex, cp, n).value;
            byteIndex + |units| <= |w| &&
            units[0] == LeadUnit(w[byteIndex], cp, n) &&
            forall j :: 1 <= j < n ==> units[j] == ContinuationUnit(w[byteIndex + j], j, n)
  {
  }

  /** The units of one character carry the bytes it was decoded from, in order. */
  lemma RuneBytes(w: seq<Byte>, byteIndex: nat, cp: int, n: int)
    requires EmitRune(w, byteIndex, cp, n).Ok?
    ensures Bytes(EmitRune(w, byteIndex, cp, n).value) == w[byteIndex..byteIndex + Max(n, 1)]
  {
    var units := EmitRune(w, byteIndex, cp, n).value;
    RuneLayout(w, byteIndex, cp, n);
    assert forall j :: 0 <= j < |units| ==> units[j].b == w[byteIndex + j];
  }

  /**
    What the units of one character say: the lead unit carries the code point
    and is a multi-byte character exactly when the character takes two bytes
    or more; the `j`-th continuation unit carries `-j`, is flagged `First`
    exactly when `j` is 1 and `Last` exactly when it is the character's last.
   */
  lemma RuneUnits(w: seq<Byte>, byteIndex: nat, cp: int, n: int)
    requires EmitRune(w, byteIndex, cp, n).Ok?
    ensures var units := EmitRune(w, byteIndex, cp, n).value;
            units[0].codePoint == cp && units[0].filled && units[0].b == w[byteIndex] &&
            (units[0].kind == MULTI_BYTE_CHAR <==> n >= 2) &&
            (units[0].kind == SINGLE_BYTE_CHAR <==> n <= 1)
    ensures var units := EmitRune(w, byteIndex, cp, n).value;
            forall j :: 1 <= j < n ==>
              units[j].codePoint == -j && units[j].filled && units[j].b == w[byteIndex + j] &&
              HasFlag(units[j].kind, CONTINUTION_BYTE) &&
              (HasFlag(units[j].kind, FIRST) <==> j == 1) &&
              (HasFlag(units[j].kind, LAST) <==> j == n - 1)
  {
    RuneLayout(w, byteIndex, cp, n);
  }

  /** The units of one character are well-formed, prefix by prefix. */
  lemma {:induction false} RunePrefixWellFormed(units: seq<CharData>, n: int, m: nat)
    requires 1 <= m <= |units| == Max(n, 1)
    requires units[0].filled && units[0].codePoint >= 0 && (n >= 2 ==> units[0].kind == MULTI_BYTE_CHAR)
    requires forall j :: 1 <= j < n ==> units[j].codePoint == -j && units[j].filled
    ensures WellFormed(units[..m])
  {
    if m == 1 {
      assert units[..m][..0] == [];
    } else {
      RunePrefixWellFormed(units, n, m - 1);
      assert units[..m][..m - 1] == units[..m - 1];
    }
  }

  lemma RuneWellFormed(w: seq<Byte>, byteIndex: nat, cp: int, n: int)
    requires 0 <= cp && EmitRune(w, byteIndex, cp, n).Ok?
    ensures WellFormed(EmitRune(w, byteIndex, cp, n).value)
  {
    var units := EmitRune(w, byteIndex, cp, n).value;
    RuneUnits(w, byteIndex, cp, n);
    RunePrefixWellFormed(units, n, |units|);
    assert units[..|units|] == units;
  }

  /** The bytes a run of runes takes, by the encoding's count. */
  function SumCounts(enc: Encoding, cps: seq<int>): (total: int)
    ensures total >= 0
    ensures CountsPositive(enc, cps) ==> total >= |cps|
  {
    if cps == [] then 0 else ByteCount(enc, cps[0]) + SumCounts(enc, cps[1..])
  }

  /** Every rune counts at least one byte. */
  predicate CountsPositive(enc: Encoding, cps: seq<int>) {
    forall cp <- cps :: ByteCount(enc, cp) >= 1
  }

  /**
    The units of the decoded runes, attributed to the window's bytes from
    `byteIndex` on, and the byte index after the last of them.
   */
  function EmitRunes(enc: Encoding, w: seq<Byte>, byteIndex: nat, cps: seq<int>): (r: Result<(seq<CharData>, nat)>)
    ensures r.Ok? ==> r.value.1 >= byteIndex
    decreases |cps|
  {
    if cps == [] then Ok(([], byteIndex))
    else
      var n := ByteCount(enc, cps[0]);
      var head :- EmitRune(w, byteIndex, cps[0], n);
      var tail :- EmitRunes(enc, w, byteIndex + n, cps[1..]);
      Ok((head + tail.0, tail.1))
  }

  lemma {:induction false} EmitRunesWellFormed(enc: Encoding, w: seq<Byte>, byteIndex: nat, cps: seq<int>)
    requires forall i :: 0 <= i < |cps| ==> 0 <= cps[i]
    requires EmitRunes(enc, w, byteIndex, cps).Ok?
    ensures WellFormed(EmitRunes(enc, w, byteIndex, cps).value.0)
    decreases |cps|
  {
    if cps == [] {
      assert EmitRunes(enc, w, byteIndex, cps).value.0 == [];
    } else {
      var n := ByteCount(enc, cps[0]);
      EmitRunesUnfold(enc, w, byteIndex, cps);
      var head := EmitRune(w, byteIndex, cps[0], n).value;
      var tail := EmitRunes(enc, w, byteIndex + n, cps[1..]).value;
      RuneWellFormed(w, byteIndex, cps[0], n);
      assert forall i :: 0 <= i < |cps| - 1 ==> cps[1..][i] == cps[i + 1];
      EmitRunesWellFormed(enc, w, byteIndex + n, cps[1..]);
      WellFormedAppend(head, tail.0);
    }
  }

  /** One rune, then the rest of the runes. */
  lemma EmitRunesUnfold(enc: Encoding, w: seq<Byte>, byteIndex: nat, cps: seq<int>)
    requires cps != []
    ensures var n := ByteCount(enc, cps[0]);
            var head := EmitRune(w, byteIndex, cps[0], n);
            var tail := EmitRunes(enc, w, byteIndex + n, cps[1..]);
            EmitRunes(enc, w, byteIndex, cps) ==
              if head.Err? then Err(head.error)
              else if tail.Err? then Err(tail.error)
              else Ok((head.value + tail.value.0, tail.value.1))
  {
  }

  /**
    When every rune counts at least one byte, the runes' units succeed exactly
    when their bytes fit the window, and they end after all the runes' bytes.
   */
  lemma {:induction false} EmitRunesEnd(enc: Encoding, w: seq<Byte>, byteIndex: nat, cps: seq<int>)
    requires CountsPositive(enc, cps) && byteIndex <= |w|
    ensures EmitRunes(enc, w, byteIndex, cps).Ok? <==> byteIndex + SumCounts(enc, cps) <= |w|
    ensures EmitRunes(enc, w, byteIndex, cps).Ok? ==>
              EmitRunes(enc, w, byteIndex, cps).value.1 == byteIndex + SumCounts(enc, cps)
    decreases |cps|
  {
    if cps != [] {
      var n := ByteCount(enc, cps[0]);
      assert CountsPositive(enc, cps[1..]);
      assert n >= 1 && SumCounts(enc, cps) == n + SumCounts(enc, cps[1..]);
      EmitRunesUnfold(enc, w, byteIndex, cps);
      if byteIndex + n <= |w| {
        EmitRunesEnd(enc, w, byteIndex + n, cps[1..]);
      }
    }
  }

  /** When every rune counts at least one byte, the runes' units carry the window's bytes they cover, in order. */
  lemma {:induction false} EmitRunesBytes(enc: Encoding, w: seq<Byte>, byteIndex: nat, cps: seq<int>)
    requires CountsPositive(enc, cps) && byteIndex <= |w| && EmitRunes(enc, w, byteIndex, cps).Ok?
    ensures var end := EmitRunes(enc, w, byteIndex, cps).value.1;
            end <= |w| && Bytes(EmitRunes(enc, w, byteIndex, cps).value.0) == w[byteIndex..end]
    decreases |cps|
  {
    if cps == [] {
      assert EmitRunes(enc, w, byteIndex, cps) == Ok(([], byteIndex));
    } else {
      var n := ByteCount(enc, cps[0]);
      assert cps[0] in cps && n >= 1;
      assert CountsPositive(enc, cps[1..]);
      EmitRunesUnfold(enc, w, byteIndex, cps);
      var head := EmitRune(w, byteIndex, cps[0], n).value;
      var tail := EmitRunes(enc, w, byteIndex + n, cps[1..]).value;
      assert EmitRunes(enc, w, byteIndex, cps).value == (head + tail.0, tail.1);
      RuneBytes(w, byteIndex, cps[0], n);
      EmitRunesBytes(enc, w, byteIndex + n, cps[1..]);
      BytesAppend(head, tail.0);
      SliceConcat(w, byteIndex, byteIndex + n, tail.1);
    }
  }

  // ---------------------------------------------------------------------
  // One window and the whole loop.

  /** What one window yields: its units, the bytes it advances by, and the fallback buffer afterwards. */
  datatype StepResult = StepResult(units: seq<CharData>, consumed: nat, fb: Buffer)

  /** The bytes the fallback holds once the window is decoded. */
  function StoredBytes(enc: Encoding, fb: Buffer, w: seq<Byte>): seq<Byte> {
    RunCalls(fb, enc.decode(w).calls).bytesUnknown
  }

  /** The fallback's units: none when it kept nothing, otherwise its bytes as undecodable units. */
  function FallbackUnits(fb: Buffer): (r: (seq<CharData>, Buffer))
    ensures r.1 == FRESH
    ensures |r.0| == |fb.bytesUnknown| && Bytes(r.0) == fb.bytesUnknown
    ensures forall i :: 0 <= i < |r.0| ==> r.0[i] == BinaryUnit(fb.bytesUnknown[i])
  {
    if HasFallbackChars(fb) then GetFallbackChars(fb) else ([], fb)
  }

  /**
    One pass of the loop body of `HexDumpCore`: decode the window (a result
    that does not fit the five-char array makes `TryGetChars` fail), emit the
    fallback's bytes, then the units of every rune.
   */
  function Step(enc: Encoding, fb: Buffer, w: seq<Byte>): (r: Result<StepResult>)
    ensures r.Ok? ==> r.value.fb == FRESH
    ensures r.Ok? ==> var stored := StoredBytes(enc, fb, w);
                      |r.value.units| >= |stored| && r.value.consumed >= |stored| &&
                      forall i :: 0 <= i < |stored| ==> r.value.units[i] == BinaryUnit(stored[i])
    ensures |enc.decode(w).chars| > CHARS_CAPACITY ==> r == Err(DecodeFailed)
  {
    var d := enc.decode(w);
    if |d.chars| > CHARS_CAPACITY then Err(DecodeFailed)
    else
      var (fallbackUnits, fb2) := FallbackUnits(RunCalls(fb, d.calls));
      var cps :- Runes(d.chars);
      var (units, end) :- EmitRunes(enc, w, |fallbackUnits|, cps);
      Ok(StepResult(fallbackUnits + units, end, fb2))
  }

  /** Units that all carry a code point that is not negative are well-formed. */
  lemma {:induction false} WellFormedWithoutContinuations(units: seq<CharData>)
    requires forall i :: 0 <= i < |units| ==> units[i].filled && units[i].codePoint >= 0
    ensures WellFormed(units)
    decreases |units|
  {
    if units != [] {
      WellFormedWithoutContinuations(units[..|units| - 1]);
    }
  }

  lemma StepWellFormed(enc: Encoding, fb: Buffer, w: seq<Byte>)
    requires Step(enc, fb, w).Ok?
    ensures WellFormed(Step(enc, fb, w).value.units)
  {
    var d := enc.decode(w);
    var (fallbackUnits, fb2) := FallbackUnits(RunCalls(fb, d.calls));
    var cps := Runes(d.chars).value;
    WellFormedWithoutContinuations(fallbackUnits);
    assert forall i :: 0 <= i < |cps| ==> cps[i] in cps;
    EmitRunesWellFormed(enc, w, |fallbackUnits|, cps);
    WellFormedAppend(fallbackUnits, EmitRunes(enc, w, |fallbackUnits|, cps).value.0);
  }

  // ---------------------------------------------------------------------
  // The decoder's contract and losslessness.

  /**
    What the dump needs of the encoding on a window: the chars fit the array
    and form whole runes, the bytes the fallback keeps are the front of the
    window, every rune counts one to four bytes, and together the kept bytes
    and the runes cover at least one and at most all of the window's bytes.
   */
  ghost predicate WindowDecodes(enc: Encoding, w: seq<Byte>) {
    var d := enc.decode(w);
    var stored := RunCalls(FRESH, d.calls).bytesUnknown;
    |d.chars| <= CHARS_CAPACITY &&
    |stored| <= |w| && w[..|stored|] == stored &&
    Runes(d.chars).Ok? &&
    (forall cp <- Runes(d.chars).value :: 1 <= ByteCount(enc, cp) <= WINDOW) &&
    1 <= |stored| + SumCounts(enc, Runes(d.chars).value) <= |w|
  }

  /** An encoding that behaves on every window the loop can form. */
  ghost predicate WellBehaved(enc: Encoding) {
    forall w: seq<Byte> {:trigger WindowDecodes(enc, w)} :: 1 <= |w| <= WINDOW ==> WindowDecodes(enc, w)
  }

  /** On a window the encoding decodes, one step succeeds and yields exactly the window's first `consumed` bytes. */
  lemma StepCovers(enc: Encoding, w: seq<Byte>)
    requires WindowDecodes(enc, w)
    ensures Step(enc, FRESH, w).Ok?
    ensures var s := Step(enc, FRESH, w).value;
            1 <= s.consumed <= |w| && Bytes(s.units) == w[..s.consumed]
  {
    var d := enc.decode(w);
    var fb1 := RunCalls(FRESH, d.calls);
    var (fallbackUnits, fb2) := if HasFallbackChars(fb1) then GetFallbackChars(fb1) else ([], fb1);
    var cps := Runes(d.chars).value;
    assert CountsPositive(enc, cps);
    EmitRunesEnd(enc, w, |fallbackUnits|, cps);
    EmitRunesBytes(enc, w, |fallbackUnits|, cps);
    var (units, end) := EmitRunes(enc, w, |fallbackUnits|, cps).value;
    BytesAppend(fallbackUnits, units);
    assert Bytes(fallbackUnits) == w[..|fallbackUnits|];
    assert w[..|fallbackUnits|] + w[|fallbackUnits|..end] == w[..end];
  }

  /** Units covering the data up to `p`, followed by units covering the front of the window at `p`, cover the data further. */
  lemma CoverExtends(data: seq<Byte>, p: nat, w: seq<Byte>, units: seq<CharData>, more: seq<CharData>, consumed: nat)
    requires p + |w| <= |data| && data[p..p + |w|] == w && consumed <= |w|
    requires Bytes(units) == data[..p] && Bytes(more) == w[..consumed]
    ensures Bytes(units + more) == data[..p + consumed]
  {
    BytesAppend(units, more);
    assert w[..consumed] == data[p..p + consumed];
    SliceConcat(data, 0, p, p + consumed);
    assert data[0..p] == data[..p];
  }

  /** The loop's invariant survives one pass. */
  lemma LoopStep(enc: Encoding, data: seq<Byte>, p: nat, w: seq<Byte>, units: seq<CharData>, step: StepResult)
    requires p + |w| <= |data| && data[p..p + |w|] == w
    requires WellFormed(units) && WellFormed(step.units)
    requires WellBehaved(enc) ==> Bytes(units) == data[..p] && step.consumed <= |w| && Bytes(step.units) == w[..step.consumed]
    ensures WellFormed(units + step.units)
    ensures WellBehaved(enc) ==> p + step.consumed <= |data| && Bytes(units + step.units) == data[..p + step.consumed]
  {
    WellFormedAppend(units, step.units);
    if WellBehaved(enc) {
      CoverExtends(data, p, w, units, step.units, step.consumed);
    }
  }

  /** One pass of the loop body, with what the loop needs to know of it. */
  method RunStep(enc: Encoding, fb: Buffer, w: seq<Byte>) returns (r: Result<StepResult>)
    ensures r.Ok? ==> r.value.fb == FRESH && WellFormed(r.value.units)
    ensures fb == FRESH && WellBehaved(enc) && 1 <= |w| <= WINDOW ==>
              r.Ok? && 1 <= r.value.consumed <= |w| && Bytes(r.value.units) == w[..r.value.consumed]
  {
    r := Step(enc, fb, w);
    if r.Ok? {
      StepWellFormed(enc, fb, w);
    }
    if fb == FRESH && WellBehaved(enc) && 1 <= |w| <= WINDOW {
      assert WindowDecodes(enc, w);
      StepCovers(enc, w);
    }
  }

  /**
    `HexDumpCore(data, enc)` with a new fallback buffer, run to the end: the
    units of every window, in order. Whatever the encoding does, the units of
    a run that ends without error are well-formed; with an encoding that
    honours its contract the run ends without error and the units' bytes are
    the data, one unit per byte, in order.
   */
  method Core(enc: Encoding, data: seq<Byte>) returns (r: Result<seq<CharData>>)
    ensures r.Ok? ==> WellFormed(r.value)
    ensures WellBehaved(enc) ==> r.Ok? && |r.value| == |data| && Bytes(r.value) == data
  {
    var fb := FRESH;
    var p: nat := 0;
    var units: seq<CharData> := [];
    while p < |data|
      invariant fb == FRESH
      invariant WellFormed(units)
      invariant WellBehaved(enc) ==> p <= |data| && Bytes(units) == data[..p]
      decreases |data| - p
    {
      var w := Window(data, p);
      var res := RunStep(enc, fb, w);
      if res.Err? {
        return Err(res.error);
      }
      var step := res.value;
      if step.consumed == 0 {
        return Err(NoProgress);
      }
      LoopStep(enc, data, p, w, units, step);
      units := units + step.units;
      p := p + step.consumed;
      fb := step.fb;
    }
    assert WellBehaved(enc) ==> data[..p] == data;
    return Ok(units);
  }
}

=== FILE: hex_dumper.dfy ===
/**
  `HexDumper.HexDump`, both overloads: the bytes of a memory block or a stream
  from `offset` on are decoded and set, unit by unit, into rows of sixteen
  positions, the first position being `offset`.
 */
module Dumper {
  import opened Base
  import opened Units
  import opened Decoding
  import opened Rows
  import opened Aggregation
  import opened Streaming

  /**
    The argument checks and the slice of the in-memory overload: the offset
    must lie within the data and fit in an `int`, and a positive `length`
    that ends before the data does cuts the slice short. (A memory block is
    never longer than `int.MaxValue`, so the second check never decides on
    its own.)
   */
  function Target(data: seq<Byte>, offset: int, length: int): (r: Result<seq<Byte>>)
    ensures r.Ok? <==> 0 <= offset <= |data| && offset <= INT_MAX
    ensures r.Ok? ==> var n := if length > 0 then Min(length, |data| - offset) else |data| - offset;
                      r.value == data[offset..offset + n]
  {
    if |data| < offset then Err(OffsetOutOfRange)
    else if offset > INT_MAX then Err(OffsetOutOfRange)
    else if offset < 0 then Err(OffsetOutOfRange)  // `Slice` refuses a negative start
    else if length > 0 && |data| > offset + length then Ok(data[offset..offset + length])
    else Ok(data[offset..])
  }

  /**
    `HexDump(data, encoding, offset, length)`: rows of the decoded slice,
    none of them empty, whose units are the bytes of the slice in order.
   */
  method HexDump(enc: Encoding, data: seq<Byte>, offset: int, length: int) returns (r: Result<seq<Row>>)
    ensures Target(data, offset, length).Err? ==> r == Err(Target(data, offset, length).error)
    ensures r.Ok? ==> forall k :: 0 <= k < |r.value| ==> Valid(r.value[k]) && !r.value[k].isEmpty
    ensures r.Ok? ==> WellFormed(Flatten(r.value))
    ensures WellBehaved(enc) && Target(data, offset, length).Ok? ==>
              r.Ok? && Bytes(Flatten(r.value)) == Target(data, offset, length).value
  {
    var target :- Target(data, offset, length);
    var units :- Core(enc, target);
    DecodedFilled(units);
    AggregatedLossless(offset, units);
    return Ok(Aggregated(offset, units));
  }

  /**
    `HexDump(stream, encoding, offset, length)`: rows of the units of the
    stream's bytes from the positioned stream on, labelled from `offset`.
   */
  method HexDumpFromStream(enc: Encoding, stream: Stream, offset: int, length: int) returns (r: Result<seq<Row>>)
    requires ValidStream(stream)
    ensures var p := Position(stream, offset, BufferLength(length));
            p.Err? ==> r == Err(p.error)
    ensures r.Ok? ==> forall k :: 0 <= k < |r.value| ==> Valid(r.value[k]) && !r.value[k].isEmpty
    ensures r.Ok? ==> WellFormed(Flatten(r.value))
    ensures var p := Position(stream, offset, BufferLength(length));
            WellBehaved(enc) && p.Ok? ==>
              r.Ok? && Bytes(Flatten(r.value)) == Segment(stream.content, p.value.position, Cap(length))
  {
    var units :- HexDumpStream(enc, stream, offset, length);
    DecodedFilled(units);
    AggregatedLossless(offset, units);
    return Ok(Aggregated(offset, units));
  }

  /** Every unit of a well-formed run is filled. */
  lemma DecodedFilled(units: seq<CharData>)
    requires WellFormed(units)
    ensures AllFilled(units)
  {
    forall i | 0 <= i < |units|
      ensures units[i].filled
    {
      WellFormedAt(units, i);
    }
  }
}

=== FILE: legacy.dfy ===
/**
  The older revision of the dump kept in `Class1.cs`: a unit carries its own
  position and the chars it decoded to, the decoder is installed with the
  exception fallback, a window that starts with a NUL byte is always a single
  unit, and a row is printed from its sixteen slots with fixed separators.
 */
module Legacy {
  import opened Base
  import opened Unicode
  import opened CellWidth
  import Units
  import Aggregation
  import Decoding

  /** The older `CharData` struct; `default(CharData)` is the unfilled unit with no chars. */
  datatype Cell = Cell(b: Byte, position: int, chars: Utf16, filled: bool)

  const UNSET: Cell := Cell(0, 0, [], false)

  /** `char.IsControl`: the C0 controls, DEL and the C1 controls. */
  predicate IsControl(c: CodeUnit) {
    c <= 0x1F || 0x7F <= c <= 0x9F
  }

  /** The chars a unit can carry from the older core: none, one, or a surrogate pair. */
  predicate Displayable(chars: Utf16) {
    |chars| <= 1 || (|chars| == 2 && IsSurrogatePair(chars[0], chars[1]))
  }

  /** `DisplayString` */
  function DisplayString(c: Cell): (r: Utf16)
    ensures 1 <= |r| <= Max(2, |c.chars| + 1)
  {
    var s := c.chars;
    if s == [] then (if c.filled then [0x2E, 0x2E] else [SPACE, SPACE])
    else if |s| == 2 && IsSurrogatePair(s[0], s[1]) then s
    else if UnitWidth(s[0]) == 2 then s
    else if IsControl(s[0]) then [0x5E, s[0] + 0x40]  // `(char)(c + 0x40)` stays below 0xE0
    else s + [SPACE]
  }

  /** Every unit the older core can produce displays two terminal cells wide. */
  lemma DisplayWidth(c: Cell)
    requires Displayable(c.chars)
    ensures Width(DisplayString(c)) == 2
  {
    var s := c.chars;
    if |s| == 2 && IsSurrogatePair(s[0], s[1]) {
      Units.SurrogateIsNarrow(s[0]);
      Units.SurrogateIsNarrow(s[1]);
      assert s[1..][1..] == [];
    } else if |s| == 1 && UnitWidth(s[0]) != 2 {
      var r := DisplayString(c);
      assert r[1..][1..] == [];
      assert UnitWidth(r[1]) == 1;
    }
  }

  /** The char a one-char display string shows: itself, itself before a space, or caret notation. */
  function Shown(s: Utf16): Option<int> {
    if |s| == 1 then Some(s[0])
    else if |s| == 2 && s[1] == SPACE then Some(s[0])
    else if |s| == 2 && s[0] == 0x5E then Some(s[1] as int - 0x40)
    else None
  }

  /** A unit with a single char shows that char: distinct chars never display alike. */
  lemma ShownRoundTrip(c: Cell)
    requires |c.chars| == 1
    ensures Shown(DisplayString(c)) == Some(c.chars[0])
  {
  }

  // ---------------------------------------------------------------------
  // The decode loop.

  /**
    What `TryGetChars` leaves behind on one window: the two-char array it
    writes into (zero where nothing was written) and, when the exception
    fallback threw, the exception's `BytesUnknown`.
   */
  datatype Attempt = Attempt(first: CodeUnit, second: CodeUnit, bytesUnknown: Option<seq<Byte>>)

  /** The encoding with the exception fallback: its decoder and its `GetByteCount` of a one-char string. */
  datatype LegacyEncoding = LegacyEncoding(tryGetChars: seq<Byte> -> Attempt, getByteCount: CodeUnit -> int)

  /** Units at consecutive positions from `p`, all filled. */
  predicate Consecutive(cells: seq<Cell>, p: int) {
    forall i :: 0 <= i < |cells| ==> cells[i].position == p + i && cells[i].filled
  }

  lemma ConsecutiveAppend(a: seq<Cell>, b: seq<Cell>, p: int)
    requires Consecutive(a, p) && Consecutive(b, p + |a|)
    ensures Consecutive(a + b, p)
  {
    assert forall i :: |a| <= i < |a| + |b| ==> (a + b)[i] == b[i - |a|];
  }

  /**
    The bytes of a run of units. `Units.Bytes` is the same projection over the
    newer `CharData`; the older cell is a different struct (it carries its
    position and chars), so the projection is stated again for it.
   */
  function CellBytes(cells: seq<Cell>): (bs: seq<Byte>)
    ensures |bs| == |cells|
  {
    seq(|cells|, i requires 0 <= i < |cells| => cells[i].b)
  }

  /** The units after a lead unit at `p`: one per byte `w[1..n]`, with no chars. */
  function Followers(w: seq<Byte>, n: int, p: int): (r: seq<Cell>)
    requires 1 <= |w| && n <= |w|
    ensures |r| == Max(n, 1) - 1
    ensures Consecutive(r, p + 1)
    ensures CellBytes(r) == w[1..Max(n, 1)]
  {
    seq(Max(n, 1) - 1, j requires 0 <= j < Max(n, 1) - 1 => Cell(w[j + 1], p + j + 1, [], true))
  }

  /**
    One pass of the loop of the older `HexDumpCore` on the window `w` at
    position `p`. A BMP char whose byte count runs past the window makes the
    byte loop index past the array; an empty `BytesUnknown` would leave the
    loop where it is forever.
   */
  function Step(enc: LegacyEncoding, w: seq<Byte>, p: int): (r: Result<seq<Cell>>)
    requires 1 <= |w|
    ensures r.Ok? ==> 1 <= |r.value| && Consecutive(r.value, p)
    ensures r.Ok? ==> forall i :: 0 <= i < |r.value| ==> Displayable(r.value[i].chars)
  {
    var a := enc.tryGetChars(w);
    if w[0] == 0 then Ok([Cell(0, p, [], true)])
    else if a.first != 0 then
      if IsSurrogatePair(a.first, a.second) then
        var tail := Followers(w, |w|, p);
        assert CellBytes([Cell(w[0], p, [a.first, a.second], true)] + tail) == [w[0]] + w[1..];
        ConsecutiveAppend([Cell(w[0], p, [a.first, a.second], true)], tail, p);
        Ok([Cell(w[0], p, [a.first, a.second], true)] + tail)
      else
        var n := enc.getByteCount(a.first);
        if n > |w| then Err(IndexOutOfRange)
        else
          var tail := Followers(w, n, p);
          assert CellBytes([Cell(w[0], p, [a.first], true)] + tail) == [w[0]] + w[1..Max(n, 1)];
          ConsecutiveAppend([Cell(w[0], p, [a.first], true)], tail, p);
          Ok([Cell(w[0], p, [a.first], true)] + tail)
    else if a.bytesUnknown.Some? then
      var u := a.bytesUnknown.value;
      if u == [] then Err(NoProgress)
      else Ok(seq(|u|, i requires 0 <= i < |u| => Cell(u[i], p + i, [], true)))
    else Ok([Cell(w[0], p, [w[0]], true)])
  }

  /** A window that starts with a NUL byte is one filled unit with no chars, whatever the decoder says. */
  lemma StepNul(enc: LegacyEncoding, w: seq<Byte>, p: int)
    requires 1 <= |w| && w[0] == 0
    ensures Step(enc, w, p) == Ok([Cell(0, p, [], true)])
  {
  }

  /** A decoded surrogate pair: the lead unit carries both chars, and every further byte of the window follows it. */
  lemma StepSurrogatePair(enc: LegacyEncoding, w: seq<Byte>, p: int)
    requires 1 <= |w| && w[0] != 0
    requires var a := enc.tryGetChars(w); a.first != 0 && IsSurrogatePair(a.first, a.second)
    ensures var a := enc.tryGetChars(w);
            Step(enc, w, p).Ok? && CellBytes(Step(enc, w, p).value) == w &&
            Step(enc, w, p).value[0].chars == [a.first, a.second]
  {
  }

  /**
    A decoded BMP char: the lead unit carries it and `GetByteCount - 1` units
    follow, which throws when that runs past the window.
   */
  lemma StepBmp(enc: LegacyEncoding, w: seq<Byte>, p: int)
    requires 1 <= |w| && w[0] != 0
    requires var a := enc.tryGetChars(w); a.first != 0 && !IsSurrogatePair(a.first, a.second)
    ensures var a := enc.tryGetChars(w);
            var r := Step(enc, w, p);
            && (r.Ok? <==> enc.getByteCount(a.first) <= |w|)
            && (r.Err? ==> r.error == IndexOutOfRange)
            && (r.Ok? ==> CellBytes(r.value) == w[..Max(1, enc.getByteCount(a.first))] && r.value[0].chars == [a.first])
  {
  }

  /** Nothing decoded and the fallback threw: one unit with no chars per unknown byte it reported. */
  lemma StepUnknown(enc: LegacyEncoding, w: seq<Byte>, p: int)
    requires 1 <= |w| && w[0] != 0
    requires var a := enc.tryGetChars(w); a.first == 0 && a.bytesUnknown.Some?
    ensures var a := enc.tryGetChars(w);
            var r := Step(enc, w, p);
            && (r.Ok? <==> a.bytesUnknown.value != [])
            && (r.Ok? ==> CellBytes(r.value) == a.bytesUnknown.value && forall i :: 0 <= i < |r.value| ==> r.value[i].chars == [])
  {
  }

  /** Nothing decoded and nothing thrown: the first byte alone, shown as the char of the same value. */
  lemma StepRaw(enc: LegacyEncoding, w: seq<Byte>, p: int)
    requires 1 <= |w| && w[0] != 0
    requires var a := enc.tryGetChars(w); a.first == 0 && a.bytesUnknown.None?
    ensures Step(enc, w, p) == Ok([Cell(w[0], p, [w[0]], true)])
  {
  }

  /** The units from position `p` on: `while (p < data.Length)`, each window at most four bytes long. */
  function CoreFrom(enc: LegacyEncoding, data: seq<Byte>, p: nat): (r: Result<seq<Cell>>)
    ensures r.Ok? ==> Consecutive(r.value, p) && |r.value| >= |data| - p
    ensures r.Ok? ==> forall i :: 0 <= i < |r.value| ==> Displayable(r.value[i].chars)
    decreases |data| - p
  {
    if p >= |data| then Ok([])
    else
      var units :- Step(enc, Decoding.Window(data, p), p);
      var rest :- CoreFrom(enc, data, p + |units|);
      ConsecutiveAppend(units, rest, p);
      Ok(units + rest)
  }

  /**
    What the dump needs of the decoder on a window: a BMP char's byte count
    stays within the window, and bytes reported unknown are a non-empty
    front of the window.
   */
  ghost predicate WindowDecodes(enc: LegacyEncoding, w: seq<Byte>) {
    var a := enc.tryGetChars(w);
    && (a.first != 0 && !IsSurrogatePair(a.first, a.second) ==> enc.getByteCount(a.first) <= |w|)
    && (a.first == 0 && a.bytesUnknown.Some? ==>
          var u := a.bytesUnknown.value;
          1 <= |u| <= |w| && w[..|u|] == u)
  }

  ghost predicate WellBehaved(enc: LegacyEncoding) {
    forall w: seq<Byte> {:trigger WindowDecodes(enc, w)} :: 1 <= |w| <= 4 ==> WindowDecodes(enc, w)
  }

  /** On a window the decoder handles, a step yields the window's first bytes, in order. */
  lemma StepLossless(enc: LegacyEncoding, w: seq<Byte>, p: int)
    requires 1 <= |w| && WindowDecodes(enc, w)
    ensures Step(enc, w, p).Ok?
    ensures var units := Step(enc, w, p).value;
            |units| <= |w| && CellBytes(units) == w[..|units|]
  {
    var a := enc.tryGetChars(w);
    if w[0] == 0 {
      assert w[..1] == [0];
    } else if a.first != 0 && IsSurrogatePair(a.first, a.second) {
      StepSurrogatePair(enc, w, p);
    } else if a.first != 0 {
      StepBmp(enc, w, p);
    } else if a.bytesUnknown.Some? {
      StepUnknown(enc, w, p);
    } else {
      assert w[..1] == [w[0]];
    }
  }

  /** Under a well-behaved decoder the units carry every byte from `p` on, each exactly once. */
  lemma {:induction false} CoreLossless(enc: LegacyEncoding, data: seq<Byte>, p: nat)
    requires WellBehaved(enc) && p <= |data|
    ensures CoreFrom(enc, data, p).Ok?
    ensures CellBytes(CoreFrom(enc, data, p).value) == data[p..]
    decreases |data| - p
  {
    if p < |data| {
      var units, q := LosslessStep(enc, data, p);
      CoreLossless(enc, data, q);
      CoreUnfold(enc, data, p);
      BytesJoin(units, CoreFrom(enc, data, q).value, data, p, q);
    }
  }

  /** The step at `p` under a well-behaved decoder: it advances, and its units carry the bytes it advances over. */
  lemma LosslessStep(enc: LegacyEncoding, data: seq<Byte>, p: nat) returns (units: seq<Cell>, q: nat)
    requires WellBehaved(enc) && p < |data|
    ensures Step(enc, Decoding.Window(data, p), p) == Ok(units)
    ensures q == p + |units| && p < q <= |data|
    ensures CellBytes(units) == data[p..q]
  {
    var w := Decoding.Window(data, p);
    assert WindowDecodes(enc, w);
    StepLossless(enc, w, p);
    units := Step(enc, w, p).value;
    q := p + |units|;
    assert w[..|units|] == data[p..q];
  }

  /** One turn of the loop, when both the step and the rest succeed. */
  lemma CoreUnfold(enc: LegacyEncoding, data: seq<Byte>, p: nat)
    requires p < |data|
    requires Step(enc, Decoding.Window(data, p), p).Ok?
    requires CoreFrom(enc, data, p + |Step(enc, Decoding.Window(data, p), p).value|).Ok?
    ensures var units := Step(enc, Decoding.Window(data, p), p).value;
            CoreFrom(enc, data, p) == Ok(units + CoreFrom(enc, data, p + |units|).value)
  {
  }

  lemma BytesJoin(units: seq<Cell>, rest: seq<Cell>, data: seq<Byte>, p: nat, q: nat)
    requires p <= q <= |data| && CellBytes(units) == data[p..q] && CellBytes(rest) == data[q..]
    ensures CellBytes(units + rest) == data[p..]
  {
    assert CellBytes(units + rest) == CellBytes(units) + CellBytes(rest);
    assert data[p..q] + data[q..] == data[p..];
  }

  // ---------------------------------------------------------------------
  // The older `CharCollectionRow`.

  /** `RowData` (always sixteen slots, which is also `Count` and what the enumerator yields) and `IsEmpty`. */
  datatype LegacyRow = LegacyRow(data: seq<Cell>, isEmpty: bool)

  predicate ValidRow(row: LegacyRow) {
    |row.data| == 16
  }

  /** `new CharCollectionRow()`: sixteen unset slots. */
  function NewRow(): (r: LegacyRow)
    ensures ValidRow(r) && r.isEmpty
    ensures forall k :: 0 <= k < 16 ==> !r.data[k].filled
  {
    LegacyRow(seq(16, _ => UNSET), true)
  }

  /** `Set(data)`: the unit goes to the slot of its own position's column. */
  function Set(row: LegacyRow, c: Cell): (r: LegacyRow)
    requires ValidRow(row)
    ensures ValidRow(r) && !r.isEmpty
    ensures r.data[Units.Col(c.position)] == c
    ensures forall k :: 0 <= k < 16 && k != Units.Col(c.position) ==> r.data[k] == row.data[k]
  {
    LegacyRow(row.data[Units.Col(c.position) := c], false)
  }

  /** `Row`: "0x" and the row offset of slot 0's position as eight hexadecimal digits. */
  function Label(row: LegacyRow): (r: Utf16)
    requires ValidRow(row)
    ensures |r| == 10 && r[..2] == [0x30, 0x78]
    ensures ParseHex(r[2..]) == Some(Units.RowBase(row.data[0].position))
  {
    var offset := Units.RowBase(row.data[0].position);
    assert Pow16(8) == 0x1_0000_0000;
    ParseHexDigits(offset, 8);
    var r := [0x30, 0x78] + HexDigits(offset, 8);
    assert r[2..] == HexDigits(offset, 8);
    r
  }

  /** One cell of `Hex`: the byte in two digits, or two spaces for an unfilled slot. */
  function HexCell(c: Cell): (r: Utf16)
    ensures |r| == 2
    ensures c.filled ==> ParseHex(r) == Some(c.b)
    ensures !c.filled ==> r == [SPACE, SPACE]
  {
    ParseHexDigits(c.b, 2);
    if c.filled then HexDigits(c.b, 2) else [SPACE, SPACE]
  }

  /** The sixteen hexadecimal cells of a row. */
  function HexCells(row: LegacyRow): (cells: seq<Utf16>)
    requires ValidRow(row)
    ensures |cells| == 16
    ensures forall i :: 0 <= i < 16 ==> cells[i] == HexCell(row.data[i]) && |cells[i]| == 2
  {
    seq(16, i requires 0 <= i < 16 => HexCell(row.data[i]))
  }

  /** `Hex`: the cells joined by single spaces. */
  function Hex(row: LegacyRow): (r: Utf16)
    requires ValidRow(row)
    ensures |r| == 47
  {
    JoinUniformLength(HexCells(row), [SPACE], 2);
    Join(HexCells(row), [SPACE])
  }

  /** Slot `i` sits at `3 * i` in the hexadecimal pane and reads back as its byte, or as blanks. */
  lemma HexReadBack(row: LegacyRow, i: nat)
    requires ValidRow(row) && i < 16
    ensures 3 * i + 2 <= |Hex(row)|
    ensures row.data[i].filled ==> ParseHex(Hex(row)[3 * i..3 * i + 2]) == Some(row.data[i].b)
    ensures !row.data[i].filled ==> Hex(row)[3 * i..3 * i + 2] == [SPACE, SPACE]
  {
    var cells := HexCells(row);
    JoinCell(cells, [SPACE], 2, i);
    OffsetIsProduct(i, 3);
  }

  /** One cell of `Chars`: the display string, or two spaces for an unfilled slot. */
  function CharsCell(c: Cell): Utf16 {
    if c.filled then DisplayString(c) else [SPACE, SPACE]
  }

  /** `Chars`: the display cells joined by the box-drawing bar U+2502. */
  function Chars(row: LegacyRow): (r: Utf16)
    requires ValidRow(row)
    ensures |r| >= 16 + 15
  {
    var cells := seq(16, i requires 0 <= i < 16 => CharsCell(row.data[i]));
    JoinAtLeast(cells, [0x2502]);
    Join(cells, [0x2502])
  }

  /** A join is at least as long as its cells' count plus its separators. */
  lemma {:induction false} JoinAtLeast(cells: seq<Utf16>, separator: Utf16)
    requires |cells| >= 1 && forall i :: 0 <= i < |cells| ==> |cells[i]| >= 1
    ensures |Join(cells, separator)| >= |cells| + (|cells| - 1) * |separator|
    decreases |cells|
  {
    if |cells| > 1 {
      JoinAtLeast(cells[..|cells| - 1], separator);
    }
  }

  /** A row of units the older core produced is 47 terminal cells wide in the character pane. */
  lemma CharsWidth(row: LegacyRow)
    requires ValidRow(row) && forall i :: 0 <= i < 16 ==> Displayable(row.data[i].chars)
    ensures Width(Chars(row)) == 47
  {
    var cells := seq(16, i requires 0 <= i < 16 => CharsCell(row.data[i]));
    forall i | 0 <= i < 16
      ensures Width(cells[i]) == 2
    {
      if row.data[i].filled {
        DisplayWidth(row.data[i]);
      } else {
        assert cells[i][1..][1..] == [];
      }
    }
    JoinWidth(cells, [0x2502], 2);
    assert Width([0x2502]) == 1;
    OffsetIsProduct(15, 3);
  }

  // ---------------------------------------------------------------------
  // The older `HexDump`: a row is complete after column 15.

  /** The loop of `HexDump` from the row being filled. */
  function Collect(row: LegacyRow, cells: seq<Cell>): (rows: seq<LegacyRow>)
    requires ValidRow(row)
    ensures forall k :: 0 <= k < |rows| ==> ValidRow(rows[k]) && !rows[k].isEmpty
    decreases |cells|
  {
    if cells == [] then (if row.isEmpty then [] else [row])
    else
      var r := Set(row, cells[0]);
      if Units.Col(cells[0].position) == 15 then [r] + Collect(NewRow(), cells[1..])
      else Collect(r, cells[1..])
  }

  /** `HexDump(data, encoding)`: the rows of the units of the whole block. */
  function HexDump(enc: LegacyEncoding, data: seq<Byte>): (r: Result<seq<LegacyRow>>)
    ensures r.Ok? ==> forall k :: 0 <= k < |r.value| ==> ValidRow(r.value[k]) && !r.value[k].isEmpty
  {
    var cells :- CoreFrom(enc, data, 0);
    Ok(Collect(NewRow(), cells))
  }

  /**
    Unit `i` of a run starting at `s` sits in row `(Col(s) + i) / 16`, in the
    slot of its own position. This mirrors `Aggregation.Placed`, restated for
    the older row, whose slots hold `Cell`s and whose label is read from slot 0
    rather than stored.
   */
  predicate Placed(rows: seq<LegacyRow>, s: int, cells: seq<Cell>, i: nat)
    requires i < |cells|
  {
    var k := (Units.Col(s) + i) / 16;
    k < |rows| && ValidRow(rows[k]) && rows[k].data[Units.Col(s + i)] == cells[i]
  }

  lemma PlacedNext(rows: seq<LegacyRow>, s: int, cells: seq<Cell>, i: nat)
    requires 0 < i < |cells| && Units.Col(s) < 15
    requires Placed(rows, s + 1, cells[1..], i - 1)
    ensures Placed(rows, s, cells, i)
  {
    Aggregation.ColNext(s);
    assert s + 1 + (i - 1) == s + i;
  }

  lemma PlacedWrap(r: LegacyRow, tail: seq<LegacyRow>, s: int, cells: seq<Cell>, i: nat)
    requires 0 < i < |cells| && Units.Col(s) == 15
    requires Placed(tail, s + 1, cells[1..], i - 1)
    ensures Placed([r] + tail, s, cells, i)
  {
    Aggregation.ColNext(s);
    assert (15 + i) / 16 == (i - 1) / 16 + 1;
    assert s + 1 + (i - 1) == s + i;
  }

  /** The first row keeps what its slots before the first unit's column held. */
  lemma {:induction false} CollectKeepsFront(row: LegacyRow, s: int, cells: seq<Cell>, c: int)
    requires ValidRow(row) && !row.isEmpty && Consecutive(cells, s) && 0 <= c < Units.Col(s)
    ensures var rows := Collect(row, cells);
            |rows| > 0 && ValidRow(rows[0]) && rows[0].data[c] == row.data[c]
    decreases |cells|
  {
    if cells != [] {
      Aggregation.ColNext(s);
      assert cells[0].position == s;
      if Units.Col(s) < 15 {
        assert Consecutive(cells[1..], s + 1);
        CollectKeepsFront(Set(row, cells[0]), s + 1, cells[1..], c);
      } else {
        assert Collect(row, cells)[0] == Set(row, cells[0]);
      }
    }
  }

  lemma {:induction false} CollectPlacement(row: LegacyRow, s: int, cells: seq<Cell>, i: nat)
    requires ValidRow(row) && Consecutive(cells, s) && i < |cells|
    ensures Placed(Collect(row, cells), s, cells, i)
    decreases |cells|
  {
    var rest := cells[1..];
    var r := Set(row, cells[0]);
    assert cells[0].position == s;
    assert Consecutive(rest, s + 1);
    if Units.Col(s) == 15 {
      var tail := Collect(NewRow(), rest);
      assert Collect(row, cells) == [r] + tail;
      if i == 0 {
        assert s + 0 == s;
      } else {
        CollectPlacement(NewRow(), s + 1, rest, i - 1);
        PlacedWrap(r, tail, s, cells, i);
      }
    } else {
      var rows := Collect(r, rest);
      assert Collect(row, cells) == rows;
      Aggregation.ColNext(s);
      if i == 0 {
        CollectKeepsFront(r, s + 1, rest, Units.Col(s));
        assert s + 0 == s;
      } else {
        CollectPlacement(r, s + 1, rest, i - 1);
        PlacedNext(rows, s, cells, i);
      }
    }
  }

  lemma {:induction false} CollectCount(row: LegacyRow, cells: seq<Cell>, s: int)
    requires ValidRow(row) && Consecutive(cells, s)
    ensures var n := |cells|;
            |Collect(row, cells)| ==
              (Units.Col(s) + n) / 16
              + (if n > 0 then (if (Units.Col(s) + n) % 16 != 0 then 1 else 0)
                 else if row.isEmpty then 0 else 1)
    decreases |cells|
  {
    if cells != [] {
      assert cells[0].position == s;
      assert Consecutive(cells[1..], s + 1);
      Aggregation.ColNext(s);
      if Units.Col(s) == 15 {
        CollectCount(NewRow(), cells[1..], s + 1);
      } else {
        CollectCount(Set(row, cells[0]), cells[1..], s + 1);
      }
    }
  }

  /**
    Under a well-behaved decoder the older dump shows every byte: byte `i`
    sits in row `i / 16`, slot `i % 16`, at its own position, and there is one
    row per sixteen bytes begun.
   */
  lemma HexDumpPlacement(enc: LegacyEncoding, data: seq<Byte>, i: nat)
    requires WellBehaved(enc) && i < |data|
    ensures HexDump(enc, data).Ok?
    ensures var rows := HexDump(enc, data).value;
            && |rows| == (|data| + 15) / 16
            && rows[i / 16].data[i % 16].b == data[i]
            && rows[i / 16].data[i % 16].position == i
  {
    CoreLossless(enc, data, 0);
    var cells := CoreFrom(enc, data, 0).value;
    assert CellBytes(cells)[i] == data[i];
    CollectPlacement(NewRow(), 0, cells, i);
    CollectCount(NewRow(), cells, 0);
  }
}

=== FILE: multi_byte_fallback.dfy ===
/**
  `MultiByteFallback.MultiByteFallbackBuffer`: a decoder fallback that keeps
  only the first unknown byte reported at index 0 and hands it back to the
  decoder once, as a char of the same value.
 */
module MultiByteFallback {
  import opened Base

  /** `_firstByte` and `_remaining` */
  datatype Buffer = Buffer(firstByte: Byte, remaining: int)

  /** A new buffer. */
  const FRESH: Buffer := Buffer(0, 0)

  predicate Valid(buf: Buffer) {
    buf.remaining == 0 || buf.remaining == 1
  }

  /**
    `Fallback`: at index 0 keeps the first unknown byte and reports it handled
    (indexing an empty array throws); at any other index changes nothing.
   */
  function Fallback(buf: Buffer, bytesUnknown: seq<Byte>, index: int): (r: Result<(bool, Buffer)>)
    requires Valid(buf)
    ensures r.Err? <==> index == 0 && |bytesUnknown| == 0
    ensures r.Ok? ==> Valid(r.value.1) && (r.value.0 <==> index == 0)
    ensures r.Ok? && index == 0 ==> r.value.1 == Buffer(bytesUnknown[0], 1)
    ensures r.Ok? && index != 0 ==> r.value.1 == buf
  {
    if index == 0 then
      if |bytesUnknown| == 0 then Err(IndexOutOfRange)
      else Ok((true, Buffer(bytesUnknown[0], 1)))
    else Ok((false, buf))
  }

  /** `GetNextChar`: the kept byte once, then NUL. */
  function GetNextChar(buf: Buffer): (r: (CodeUnit, Buffer))
    requires Valid(buf)
    ensures Valid(r.1) && r.1.remaining == 0
    ensures buf.remaining == 1 ==> r.0 == buf.firstByte
    ensures buf.remaining == 0 ==> r == (0, buf)
  {
    if buf.remaining == 0 then (0, buf)
    else (buf.firstByte, buf.(remaining := 0))
  }

  /** `MovePrevious` throws NotImplementedException. */
  function MovePrevious(buf: Buffer): Result<bool> {
    Err(NotImplemented)
  }

  /** After a fallback at index 0, the decoder reads the first unknown byte and then NUL. */
  lemma FirstByteOnce(buf: Buffer, bytesUnknown: seq<Byte>)
    requires Valid(buf) && |bytesUnknown| > 0
    ensures Fallback(buf, bytesUnknown, 0).Ok?
    ensures var after := Fallback(buf, bytesUnknown, 0).value.1;
            GetNextChar(after).0 == bytesUnknown[0] &&
            GetNextChar(GetNextChar(after).1).0 == 0
  {
  }
}

=== FILE: rows.dfy ===
/**
  `CharCollectionRow`: sixteen slots of units that share one 16-aligned row
  offset, with the row label, the hexadecimal pane and the character pane it
  prints, the filled-slot enumerator and `Count`.
 */
module Rows {
  import opened Base
  import opened CellWidth
  import opened Units

  /** `CharCollectionRow`: the masked row offset `_row`, the slots `RowData` and the flag `IsEmpty`. */
  datatype Row = Row(offset: int, slots: seq<CharData>, isEmpty: bool)

  /**
    A row as the constructor and `Set` keep it: sixteen slots, an aligned
    31-bit offset, and no filled slot while the row is still empty.
   */
  predicate Valid(row: Row) {
    && |row.slots| == 16
    && 0 <= row.offset <= 0x7FFF_FFF0 && row.offset % 16 == 0
    && (row.isEmpty ==> forall i :: 0 <= i < 16 ==> !row.slots[i].filled)
  }

  /** `new CharCollectionRow(row)`: every slot holds the default unit. */
  function NewRow(row: int): (r: Row)
    ensures Valid(r) && r.isEmpty
    ensures r.offset == RowBase(row)
    ensures Enumerate(r) == []
  {
    var r := Row(RowBase(row), seq(16, _ => UNFILLED), true);
    FilledNone(r.slots);
    r
  }

  /** `Set(position, data)`: slot `position & 0x0F` receives the unit and the row is no longer empty. */
  function Set(row: Row, position: int, data: CharData): (r: Row)
    requires Valid(row)
    ensures Valid(r) && !r.isEmpty && r.offset == row.offset
    ensures r.slots[Col(position)] == data
    ensures forall c :: 0 <= c < 16 && c != Col(position) ==> r.slots[c] == row.slots[c]
  {
    row.(slots := row.slots[Col(position) := data], isEmpty := false)
  }

  // ---------------------------------------------------------------------
  // The enumerator and `Count`.

  /** The filled units of a run of slots, in slot order. */
  function Filled(slots: seq<CharData>): (r: seq<CharData>)
    ensures |r| <= |slots|
    ensures forall i :: 0 <= i < |r| ==> r[i].filled
    decreases |slots|
  {
    if slots == [] then [] else (if slots[0].filled then [slots[0]] else []) + Filled(slots[1..])
  }

  /** `RowData.Count(c => c.Filled)` */
  function FilledCount(slots: seq<CharData>): (n: nat)
    decreases |slots|
  {
    if slots == [] then 0 else (if slots[0].filled then 1 else 0) + FilledCount(slots[1..])
  }

  /** `GetEnumerator`: the filled slots only, in slot order. */
  function Enumerate(row: Row): (r: seq<CharData>)
    ensures forall u <- r :: u.filled && u in row.slots
    ensures forall i :: 0 <= i < |row.slots| && row.slots[i].filled ==> row.slots[i] in r
  {
    FilledMembers(row.slots);
    Filled(row.slots)
  }

  /** The filter keeps exactly the filled slots. */
  lemma {:induction false} FilledMembers(slots: seq<CharData>)
    ensures forall u <- Filled(slots) :: u in slots
    ensures forall i :: 0 <= i < |slots| && slots[i].filled ==> slots[i] in Filled(slots)
    decreases |slots|
  {
    if slots != [] {
      FilledMembers(slots[1..]);
      assert forall i :: 1 <= i < |slots| ==> slots[i] == slots[1..][i - 1];
    }
  }

  /** `Count`: 0 for a row nothing was set in, otherwise the number of filled slots. */
  function Count(row: Row): nat {
    if row.isEmpty then 0 else FilledCount(row.slots)
  }

  lemma {:induction false} FilledNone(slots: seq<CharData>)
    requires forall i :: 0 <= i < |slots| ==> !slots[i].filled
    ensures Filled(slots) == []
    decreases |slots|
  {
    if slots != [] {
      assert forall i :: 0 <= i < |slots| - 1 ==> slots[1..][i] == slots[i + 1];
      FilledNone(slots[1..]);
    }
  }

  /** A run of filled units is enumerated as it is. */
  lemma {:induction false} FilledAll(slots: seq<CharData>)
    requires forall i :: 0 <= i < |slots| ==> slots[i].filled
    ensures Filled(slots) == slots
    decreases |slots|
  {
    if slots != [] {
      assert forall i :: 0 <= i < |slots| - 1 ==> slots[1..][i] == slots[i + 1];
      FilledAll(slots[1..]);
      assert slots == [slots[0]] + slots[1..];
    }
  }

  /** Enumerating two runs of slots enumerates one after the other. */
  lemma {:induction false} FilledAppend(a: seq<CharData>, b: seq<CharData>)
    ensures Filled(a + b) == Filled(a) + Filled(b)
    decreases |a|
  {
    if a != [] {
      assert (a + b)[1..] == a[1..] + b;
      FilledAppend(a[1..], b);
    } else {
      assert a + b == b;
    }
  }

  lemma {:induction false} FilledCountIsLength(slots: seq<CharData>)
    ensures FilledCount(slots) == |Filled(slots)|
    decreases |slots|
  {
    if slots != [] {
      FilledCountIsLength(slots[1..]);
    }
  }

  /** `Count` is the number of units the enumerator yields. */
  lemma CountIsEnumerated(row: Row)
    requires Valid(row)
    ensures Count(row) == |Enumerate(row)|
  {
    FilledCountIsLength(row.slots);
    if row.isEmpty {
      FilledNone(row.slots);
    }
  }

  // ---------------------------------------------------------------------
  // The printed row: its label, its hexadecimal pane and its character pane.

  /** `Row`: "0x" and the row offset as eight upper-case hexadecimal digits. */
  function Label(row: Row): (r: Utf16)
    requires Valid(row)
    ensures |r| == 10 && r[..2] == [0x30, 0x78]
    ensures ParseHex(r[2..]) == Some(row.offset)
  {
    var digits := HexDigits(row.offset, 8);
    assert Pow16(8) == 0x1_0000_0000;
    ParseHexDigits(row.offset, 8);
    var r := [0x30, 0x78] + digits;
    assert r[2..] == digits;
    r
  }

  /**
    The cells one loop over `RowData` appends, each rendered by `render`; the
    first slot whose rendering throws ends the loop with that exception.
   */
  function Cells(slots: seq<CharData>, render: CharData -> Result<Utf16>): (r: Result<seq<Utf16>>)
    ensures r.Ok? <==> forall i :: 0 <= i < |slots| ==> render(slots[i]).Ok?
    ensures r.Ok? ==> |r.value| == |slots|
    ensures r.Ok? ==> forall i :: 0 <= i < |slots| ==> r.value[i] == render(slots[i]).value
    decreases |slots|
  {
    if slots == [] then Ok([])
    else
      var head :- render(slots[0]);
      assert forall i :: 0 <= i < |slots| - 1 ==> slots[1..][i] == slots[i + 1];
      var tail :- Cells(slots[1..], render);
      Ok([head] + tail)
  }

  /**
    One cell of `PrintHexRow`: the byte as two hexadecimal digits followed by
    `cellLength - 2` spaces, or `cellLength` spaces for an unfilled slot; a
    negative repeat count throws.
   */
  function HexCell(u: CharData, cellLength: int): (r: Result<Utf16>)
    ensures r.Ok? <==> cellLength >= (if u.filled then 2 else 0)
    ensures r.Ok? ==> |r.value| == cellLength
  {
    if u.filled then
      if cellLength - 2 < 0 then Err(CountOutOfRange) else Ok(HexDigits(u.b, 2) + Repeat(SPACE, cellLength - 2))
    else
      if cellLength < 0 then Err(CountOutOfRange) else Ok(Repeat(SPACE, cellLength))
  }

  /** A hexadecimal cell reads back as the byte of a filled slot, and is blank otherwise. */
  lemma HexCellReadBack(u: CharData, cellLength: int)
    requires HexCell(u, cellLength).Ok?
    ensures u.filled ==> ParseHex(HexCell(u, cellLength).value[..2]) == Some(u.b)
    ensures forall j :: (if u.filled then 2 else 0) <= j < cellLength ==> HexCell(u, cellLength).value[j] == SPACE
  {
    var s := HexCell(u, cellLength).value;
    if u.filled {
      assert s[..2] == HexDigits(u.b, 2);
      ParseHexDigits(u.b, 2);
    }
  }

  /**
    The `StringBuilder` capacity `RowData.Length * (cellLength + separator.Length)`
    both row getters ask for, computed in unchecked 32-bit `int` arithmetic
    (wrapping the sum first and then the product gives the same value).
   */
  function Capacity(separator: Utf16, cellLength: int): (c: int)
    ensures -0x8000_0000 <= c < 0x8000_0000
    ensures (16 * (cellLength + |separator|) - c) % 0x1_0000_0000 == 0
    ensures -0x8000_0000 <= 16 * (cellLength + |separator|) < 0x8000_0000 ==> c == 16 * (cellLength + |separator|)
  {
    WrapInt32(16 * (cellLength + |separator|))
  }

  /**
    A capacity past `int.MaxValue` wraps to a negative number, so the
    `StringBuilder` constructor throws and neither pane renders.
   */
  lemma {:induction false} OversizedRowRefused(row: Row, separator: Utf16, cellLength: int)
    requires Valid(row)
    requires 0x8000_0000 <= 16 * (cellLength + |separator|) < 0x1_0000_0000
    ensures HexRow(row, separator, cellLength) == Err(CountOutOfRange)
    ensures CharsRow(row, separator, cellLength) == Err(CountOutOfRange)
  {
    var x := 16 * (cellLength + |separator|);
    var c := Capacity(separator, cellLength);
    assert x - c == 0x1_0000_0000 by {
      assert (x - c) % 0x1_0000_0000 == 0;
    }
  }

  /** `GetHexRow(separator, cellLength)`: the hexadecimal cells joined by the separator. */
  function HexRow(row: Row, separator: Utf16, cellLength: int): (r: Result<Utf16>)
    requires Valid(row)
    ensures r.Ok? <==>
              && Capacity(separator, cellLength) >= 0
              && cellLength >= 0
              && (cellLength < 2 ==> forall i :: 0 <= i < 16 ==> !row.slots[i].filled)
  {
    if Capacity(separator, cellLength) < 0 then Err(CountOutOfRange)
    else
      var cells :- Cells(row.slots, u => HexCell(u, cellLength));
      Ok(Join(cells, separator))
  }

  /** Every hexadecimal row is sixteen cells and fifteen separators long. */
  lemma HexRowLength(row: Row, separator: Utf16, cellLength: int)
    requires Valid(row) && HexRow(row, separator, cellLength).Ok?
    ensures |HexRow(row, separator, cellLength).value| == 16 * cellLength + 15 * |separator|
  {
    var cells := HexRowCells(row, separator, cellLength);
    JoinUniformLength(cells, separator, cellLength);
  }

  /** The hexadecimal cells a row joins, one per slot. */
  lemma HexRowCells(row: Row, separator: Utf16, cellLength: int) returns (cells: seq<Utf16>)
    requires Valid(row) && HexRow(row, separator, cellLength).Ok?
    ensures |cells| == 16 && HexRow(row, separator, cellLength).value == Join(cells, separator)
    ensures forall i :: 0 <= i < 16 ==> HexCell(row.slots[i], cellLength) == Ok(cells[i]) && |cells[i]| == cellLength
  {
    cells := Cells(row.slots, u => HexCell(u, cellLength)).value;
  }

  /**
    Slot `i` of a hexadecimal row starts at `Offset(i, cellLength + |separator|)`,
    which is `i * (cellLength + |separator|)` (`OffsetIsProduct`):
    a filled slot reads back as its byte, and the rest of the cell is blank.
   */
  lemma HexRowReadBack(row: Row, separator: Utf16, cellLength: int, i: nat)
    requires Valid(row) && HexRow(row, separator, cellLength).Ok? && i < 16
    ensures var r := HexRow(row, separator, cellLength).value;
            var k := Offset(i, cellLength + |separator|);
            && 0 <= k && k + cellLength <= |r|
            && (row.slots[i].filled ==> ParseHex(r[k..k + 2]) == Some(row.slots[i].b))
            && forall j :: k + (if row.slots[i].filled then 2 else 0) <= j < k + cellLength ==> r[j] == SPACE
  {
    var cells := HexRowCells(row, separator, cellLength);
    JoinCell(cells, separator, cellLength, i);
    HexCellAt(Join(cells, separator), Offset(i, cellLength + |separator|), row.slots[i], cellLength);
  }

  /** A hexadecimal cell found inside a longer string reads back the same way. */
  lemma HexCellAt(s: Utf16, k: nat, u: CharData, cellLength: int)
    requires HexCell(u, cellLength).Ok? && CellAt(s, k, HexCell(u, cellLength).value)
    ensures k + cellLength <= |s|
    ensures u.filled ==> ParseHex(s[k..k + 2]) == Some(u.b)
    ensures forall j :: k + (if u.filled then 2 else 0) <= j < k + cellLength ==> s[j] == SPACE
  {
    var cell := HexCell(u, cellLength).value;
    HexCellReadBack(u, cellLength);
    assert forall j :: k <= j < k + cellLength ==> s[j] == cell[j - k];
    if u.filled {
      assert s[k..k + 2] == cell[..2];
    }
  }

  /** `Hex`: the row with the default separator " " and two cells per byte, 47 code units long. */
  function Hex(row: Row): (r: Utf16)
    requires Valid(row)
    ensures |r| == 47
  {
    HexRowLength(row, [SPACE], 2);
    HexRow(row, [SPACE], 2).value
  }

  /** `GetCharsRow(separator, cellLength)`: each slot's display string joined by the separator. */
  function CharsRow(row: Row, separator: Utf16, cellLength: int): (r: Result<Utf16>)
    requires Valid(row)
    ensures r.Ok? <==>
              && Capacity(separator, cellLength) >= 0
              && forall i :: 0 <= i < 16 ==> NaturalDisplay(row.slots[i], false).Ok?
  {
    if Capacity(separator, cellLength) < 0 then Err(CountOutOfRange)
    else
      var cells :- Cells(row.slots, u => GetDisplayString(u, false, cellLength));
      Ok(Join(cells, separator))
  }

  /**
    With at least two cells per byte every character cell is exactly
    `cellLength` terminal cells wide, so the panes of all rows line up: the
    last of the sixteen cells ends one cell after fifteen strides of a cell
    and a separator (`Offset(15, stride)` is `15 * stride`, `OffsetIsProduct`).
   */
  lemma CharsRowWidth(row: Row, separator: Utf16, cellLength: int)
    requires Valid(row) && CharsRow(row, separator, cellLength).Ok? && cellLength >= 2
    ensures Width(CharsRow(row, separator, cellLength).value) == Offset(15, cellLength + Width(separator)) + cellLength
  {
    var cells := CharsRowCells(row, separator, cellLength);
    JoinWidth(cells, separator, cellLength);
  }

  /**
    The display cells a character row joins: cell `i` is slot `i`'s display
    string, and with at least two cells per byte each is `cellLength` terminal
    cells wide.
   */
  lemma CharsRowCells(row: Row, separator: Utf16, cellLength: int) returns (cells: seq<Utf16>)
    requires Valid(row) && CharsRow(row, separator, cellLength).Ok?
    ensures |cells| == 16 && CharsRow(row, separator, cellLength).value == Join(cells, separator)
    ensures forall i :: 0 <= i < 16 ==> GetDisplayString(row.slots[i], false, cellLength) == Ok(cells[i])
    ensures cellLength >= 2 ==> forall i :: 0 <= i < |cells| ==> Width(cells[i]) == cellLength
  {
    cells := Cells(row.slots, u => GetDisplayString(u, false, cellLength)).value;
  }

  /** `Chars`: the character pane with the separator " ", when every slot can be displayed. */
  function Chars(row: Row): (r: Result<Utf16>)
    requires Valid(row)
    ensures r.Ok? ==> Width(r.value) == 47
  {
    var r := CharsRow(row, [SPACE], 2);
    if r.Ok? then
      CharsRowWidth(row, [SPACE], 2);
      assert Width([SPACE]) == 1;
      OffsetIsProduct(15, 3);
      r
    else r
  }
}

=== FILE: single_byte_fallback.dfy ===
/**
  `SingleByteFallback.SingileByteFallbackBufer`: a decoder fallback that hands
  the unknown bytes back to the decoder one by one, each as a char of the same
  value, and can step back over the char it handed out last.
 */
module SingleByteFallback {
  import opened Base

  /** `_bytesUnknown` and `_remaining` */
  datatype Buffer = Buffer(bytesUnknown: seq<Byte>, remaining: int)

  /** A new buffer. */
  const FRESH: Buffer := Buffer([], 0)

  /** What every reachable state satisfies: the unread bytes are a suffix of the stored ones. */
  predicate Valid(buf: Buffer) {
    0 <= buf.remaining <= |buf.bytesUnknown|
  }

  /** `Fallback`: always handled; all unknown bytes are stored and none is read yet. */
  function Fallback(buf: Buffer, bytesUnknown: seq<Byte>, index: int): (r: (bool, Buffer))
    ensures r.0
    ensures Valid(r.1) && r.1.bytesUnknown == bytesUnknown && r.1.remaining == |bytesUnknown|
  {
    (true, Buffer(bytesUnknown, |bytesUnknown|))
  }

  /** `GetNextChar`: the next stored byte as a char, or NUL once all are read. */
  function GetNextChar(buf: Buffer): (r: (CodeUnit, Buffer))
    requires Valid(buf)
    ensures Valid(r.1) && r.1.bytesUnknown == buf.bytesUnknown
    ensures buf.remaining == 0 ==> r == (0, buf)
    ensures buf.remaining > 0 ==>
              r.0 == buf.bytesUnknown[|buf.bytesUnknown| - buf.remaining] && r.1.remaining == buf.remaining - 1
  {
    if buf.remaining == 0 then (0, buf)
    else
      var i := |buf.bytesUnknown| - buf.remaining;
      (buf.bytesUnknown[i], buf.(remaining := buf.remaining - 1))
  }

  /** `MovePrevious`: steps back one char unless nothing was read. */
  function MovePrevious(buf: Buffer): (r: (bool, Buffer))
    requires Valid(buf)
    ensures Valid(r.1) && r.1.bytesUnknown == buf.bytesUnknown
    ensures !r.0 <==> buf.remaining == |buf.bytesUnknown|
    ensures !r.0 ==> r.1 == buf
    ensures r.0 ==> r.1.remaining == buf.remaining + 1
  {
    if buf.remaining == |buf.bytesUnknown| then (false, buf)
    else (true, buf.(remaining := buf.remaining + 1))
  }

  /** The chars of `n` successive `GetNextChar` calls. */
  function Drain(buf: Buffer, n: nat): (r: (seq<CodeUnit>, Buffer))
    requires Valid(buf)
    ensures |r.0| == n && Valid(r.1)
    decreases n
  {
    if n == 0 then ([], buf)
    else
      var (c, next) := GetNextChar(buf);
      var (rest, last) := Drain(next, n - 1);
      ([c] + rest, last)
  }

  /** A stored run of bytes comes back in order, followed by NUL for ever. */
  lemma {:induction false} DrainAfterFallback(bytesUnknown: seq<Byte>, index: int, extra: nat)
    ensures Drain(Fallback(FRESH, bytesUnknown, index).1, |bytesUnknown| + extra).0 ==
              bytesUnknown + Repeat(0, extra)
  {
    DrainSuffix(bytesUnknown, |bytesUnknown|, extra);
    assert bytesUnknown[0..] == bytesUnknown;
  }

  lemma {:induction false} DrainSuffix(bytes: seq<Byte>, remaining: nat, extra: nat)
    requires remaining <= |bytes|
    ensures Drain(Buffer(bytes, remaining), remaining + extra).0 ==
              bytes[|bytes| - remaining..] + Repeat(0, extra)
    decreases remaining + extra
  {
    var buf := Buffer(bytes, remaining);
    if remaining > 0 {
      DrainSuffix(bytes, remaining - 1, extra);
      assert bytes[|bytes| - remaining..] == [bytes[|bytes| - remaining]] + bytes[|bytes| - remaining + 1..];
    } else if extra > 0 {
      DrainSuffix(bytes, 0, extra - 1);
      assert Repeat(0, extra) == [0] + Repeat(0, extra - 1);
    }
  }

  /** Stepping back after a read makes the next read repeat the same char. */
  lemma MovePreviousRepeats(buf: Buffer)
    requires Valid(buf) && buf.remaining > 0
    ensures MovePrevious(GetNextChar(buf).1) == (true, buf)
    ensures GetNextChar(MovePrevious(GetNextChar(buf).1).1).0 == GetNextChar(buf).0
  {
  }
}

=== FILE: streaming.dfy ===
/**
  `HexDumpStream`: positions a stream at the requested offset, reads it in
  buffer-sized chunks, decodes every chunk, and holds back up to three trailing
  one-byte units (possibly the first bytes of a character cut by the chunk
  boundary) to decode them again at the front of the next chunk.
 */
module Streaming {
  import opened Base
  import opened Units
  import opened Decoding

  /** `BUFFER_LENGTH` */
  const BUFFER_LENGTH: nat := 1024

  /** The capacity of the lookback queue. */
  const LOOKBACK: nat := 3

  /**
    A stream: everything it will ever deliver, the current `Position`, and
    `CanSeek`. A stream that cannot seek is read from front to back, so its
    position never passes the end of its content. Every stream here reports
    its `Position`; a stream whose `Position` getter throws is not modelled.
   */
  datatype Stream = Stream(content: seq<Byte>, position: nat, canSeek: bool)

  predicate ValidStream(s: Stream) {
    s.canSeek || s.position <= |s.content|
  }

  /** The bytes left from the current position on. */
  function Available(s: Stream): nat {
    Max(0, |s.content| - s.position)
  }

  /**
    `Read(buffer, offset, count)` into a buffer with room for `count` bytes:
    as many bytes as are asked for and left, from the current position, which
    moves past them.
   */
  function Read(s: Stream, count: int): (r: Result<(seq<Byte>, Stream)>)
    ensures r.Ok? <==> count >= 0
    ensures r.Ok? ==> |r.value.0| == Min(count, Available(s))
    ensures r.Ok? ==> r.value.1 == s.(position := s.position + |r.value.0|)
    ensures r.Ok? && |r.value.0| > 0 ==> r.value.0 == s.content[s.position..s.position + |r.value.0|]
  {
    if count < 0 then Err(CountOutOfRange)
    else
      var n := Min(count, Available(s));
      if n == 0 then Ok(([], s))
      else Ok((s.content[s.position..s.position + n], s.(position := s.position + n)))
  }

  /** `Seek(offset, SeekOrigin.Begin)`: a position before the beginning is refused. */
  function Seek(s: Stream, offset: int): (r: Result<Stream>)
    ensures r.Ok? <==> offset >= 0
    ensures r.Ok? ==> r.value == s.(position := offset)
  {
    if offset < 0 then Err(OffsetOutOfRange) else Ok(s.(position := offset))
  }

  /** The length of the read buffer for a requested `length`. */
  function BufferLength(length: int): (n: nat)
    ensures 1 <= n <= BUFFER_LENGTH
    ensures length > 0 ==> n == Min(BUFFER_LENGTH, length)
  {
    if length > 0 then Min(BUFFER_LENGTH, length) else BUFFER_LENGTH
  }

  /** `remainingBytes` at the start: the requested length, or `int.MaxValue` for "to the end". */
  function Cap(length: int): (n: nat)
    ensures n >= 1
    ensures n == (if length > 0 then length else INT_MAX)
  {
    if length > 0 then length else INT_MAX
  }

  // ---------------------------------------------------------------------
  // Positioning.

  /** `count` reads of a whole buffer each, results ignored. */
  function SkipReadsAsWritten(s: Stream, count: nat, bufLen: nat): Stream
    decreases count
  {
    if count == 0 then s else SkipReadsAsWritten(Read(s, bufLen).value.1, count - 1, bufLen)
  }

  /**
    The positioning as the source writes it. A stream that cannot seek is
    accepted only when it is strictly before the offset; it is then advanced by
    `(offset - Position) / 1024` reads of the whole buffer, followed by one
    read of `offset % 1024` bytes into that buffer.
   */
  function PositionAsWritten(s: Stream, offset: int, bufLen: nat): (r: Result<Stream>)
    requires ValidStream(s)
    ensures r.Ok? && !s.canSeek ==> s.position < offset
  {
    if s.canSeek then Seek(s, offset)
    else if s.position < offset then
      var seekCount := (offset - s.position) / BUFFER_LENGTH;
      var rest := offset % BUFFER_LENGTH;
      var skipped := SkipReadsAsWritten(s, seekCount, bufLen);
      if rest > 0 then
        if rest > bufLen then Err(BufferTooSmall) else Ok(Read(skipped, rest).value.1)
      else Ok(skipped)
    else Err(CannotSeek)
  }

  /**
    Reading and discarding `n` bytes in chunks of at most `bufLen`: the
    stream ends up `n` bytes further on, or at its end.
   */
  function Skip(s: Stream, n: int, bufLen: nat): (r: Stream)
    requires bufLen >= 1 && s.position <= |s.content|
    ensures r == s.(position := Min(|s.content|, s.position + Max(n, 0)))
    decreases Max(n, 0)
  {
    if n <= 0 then s
    else
      var (bytes, next) := Read(s, Min(bufLen, n)).value;
      if |bytes| == 0 then s
      else Skip(next, n - |bytes|, bufLen)
  }

  /**
    The positioning the source evidently intends: seek when the stream can;
    otherwise read forward from wherever it is to the offset, stopping at the
    end, and refuse only an offset already passed.
   */
  function Position(s: Stream, offset: int, bufLen: nat): (r: Result<Stream>)
    requires ValidStream(s) && bufLen >= 1
    ensures r.Ok? <==> (if s.canSeek then offset >= 0 else s.position <= offset)
    ensures r.Ok? ==> r.value.content == s.content && r.value.canSeek == s.canSeek
    ensures r.Ok? ==> r.value.position == if s.canSeek then offset else Min(|s.content|, offset)
    ensures r.Ok? ==> ValidStream(r.value)
  {
    if s.canSeek then Seek(s, offset)
    else if s.position <= offset then Ok(Skip(s, offset - s.position, bufLen))
    else Err(CannotSeek)
  }

  /** Two thousand bytes of a stream that cannot seek, at `position`. */
  function Sample(position: nat): Stream {
    Stream(seq(2000, _ => 0), position, false)
  }

  /** A stream already at the offset is refused, where nothing needs skipping. */
  lemma PositionAsWrittenRefusesCurrent()
    ensures PositionAsWritten(Sample(0), 0, BUFFER_LENGTH) == Err(CannotSeek)
    ensures Position(Sample(0), 0, BUFFER_LENGTH) == Ok(Sample(0))
  {
  }

  /**
    From position 100 to offset 1500 the source skips one buffer and then
    `1500 % 1024` bytes: 1500 bytes instead of 1400, landing at 1600.
   */
  lemma PositionAsWrittenOvershoots()
    ensures PositionAsWritten(Sample(100), 1500, BUFFER_LENGTH) == Ok(Sample(1600))
    ensures Position(Sample(100), 1500, BUFFER_LENGTH) == Ok(Sample(1500))
  {
    var s1 := Read(Sample(100), BUFFER_LENGTH).value.1;
    assert s1 == Sample(1124);
    assert SkipReadsAsWritten(Sample(100), 1, BUFFER_LENGTH) == SkipReadsAsWritten(s1, 0, BUFFER_LENGTH);
  }

  /**
    With `length` 100 the buffer holds 100 bytes, but the final read of a skip
    to offset 1500 asks for `1500 % 1024` = 476 of them.
   */
  lemma PositionAsWrittenOverrunsBuffer()
    ensures PositionAsWritten(Sample(0), 1500, BufferLength(100)) == Err(BufferTooSmall)
    ensures Position(Sample(0), 1500, BufferLength(100)) == Ok(Sample(1500))
  {
    var s1 := Read(Sample(0), 100).value.1;
    assert SkipReadsAsWritten(Sample(0), 1, 100) == SkipReadsAsWritten(s1, 0, 100);
  }

  // ---------------------------------------------------------------------
  // The lookback queue.

  /** A unit whose code point fits in one byte: it may be the start of a cut character. */
  predicate OneByte(u: CharData) {
    0 <= u.codePoint <= 0xFF
  }

  predicate AllOneByte(units: seq<CharData>) {
    forall i :: 0 <= i < |units| ==> OneByte(units[i])
  }

  /**
    The queue handling of one decoded chunk: a one-byte unit is enqueued and
    the oldest unit is yielded once more than three wait; any other unit
    first flushes the queue and is then yielded itself. Returns the yielded
    units and the queue left.
   */
  function Feed(queue: seq<CharData>, units: seq<CharData>): (r: (seq<CharData>, seq<CharData>))
    requires |queue| <= LOOKBACK
    ensures r.0 + r.1 == queue + units
    ensures |r.1| <= LOOKBACK
    ensures AllOneByte(queue) ==> AllOneByte(r.1)
    decreases |units|
  {
    if units == [] then ([], queue)
    else
      var u := units[0];
      var rest := units[1..];
      assert queue + units == queue + [u] + rest;
      if !OneByte(u) then
        var r := Feed([], rest);
        assert queue + [u] + r.0 + r.1 == queue + [u] + (r.0 + r.1);
        (queue + [u] + r.0, r.1)
      else if |queue| < LOOKBACK then
        Feed(queue + [u], rest)
      else
        var r := Feed(queue[1..] + [u], rest);
        assert queue == [queue[0]] + queue[1..];
        assert [queue[0]] + r.0 + r.1 == [queue[0]] + (r.0 + r.1);
        ([queue[0]] + r.0, r.1)
  }

  /** How many units at the end of `s` fit in one byte. */
  function TrailingOneByte(s: seq<CharData>): (n: nat)
    ensures n <= |s|
    decreases |s|
  {
    if s == [] || !OneByte(s[|s| - 1]) then 0 else 1 + TrailingOneByte(s[..|s| - 1])
  }

  /** The last (at most three) units of the trailing run of one-byte units. */
  function Lookback(s: seq<CharData>): seq<CharData> {
    s[|s| - Min(LOOKBACK, TrailingOneByte(s))..]
  }

  /** One more unit: the queue keeps its last three one-byte units, or empties. */
  lemma LookbackSnoc(p: seq<CharData>, u: CharData)
    ensures var q := Lookback(p);
            |q| <= LOOKBACK &&
            Lookback(p + [u]) == if !OneByte(u) then [] else if |q| < LOOKBACK then q + [u] else q[1..] + [u]
  {
    assert (p + [u])[..|p|] == p;
  }

  lemma {:induction false} FeedLookback(p: seq<CharData>, units: seq<CharData>)
    ensures Feed(Lookback(p), units).1 == Lookback(p + units)
    decreases |units|
  {
    if units == [] {
      assert p + units == p;
    } else {
      var u := units[0];
      LookbackSnoc(p, u);
      FeedLookback(p + [u], units[1..]);
      assert p + [u] + units[1..] == p + units;
    }
  }

  /**
    Whatever the decoded units of a chunk, the queue left afterwards is the
    last three (or fewer) units of their trailing run of one-byte units.
   */
  lemma FeedQueue(units: seq<CharData>)
    ensures Feed([], units).1 == Lookback(units)
  {
    FeedLookback([], units);
    assert [] + units == units;
  }

  // ---------------------------------------------------------------------
  // The read loop.

  /** The at most `n` bytes of `content` from `start` on. */
  function Segment(content: seq<Byte>, start: nat, n: int): (r: seq<Byte>)
    ensures |r| == Max(0, Min(n, |content| - start))
  {
    if start >= |content| || n <= 0 then [] else content[start..Min(|content|, start + n)]
  }

  /** The split of one decoded chunk into the yielded units and the queue keeps the run well-formed. */
  lemma SplitWellFormed(units: seq<CharData>, out: seq<CharData>, queue: seq<CharData>)
    requires WellFormed(units) && out + queue == units && AllOneByte(queue)
    ensures WellFormed(out)
    ensures forall i :: 0 <= i < |queue| ==> queue[i].filled
  {
    assert out == units[..|out|];
    WellFormedPrefix(units, |out|);
    forall i | 0 <= i < |queue|
      ensures queue[i].filled
    {
      assert queue[i] == units[|out| + i];
      WellFormedAt(units, |out| + i);
    }
  }

  /**
    One chunk decoded and split into yielded and queued units, as the loop
    body does: the yielded units are well-formed, the queue keeps at most
    three filled one-byte units, and no byte is lost or added.
   */
  method DecodeChunk(enc: Encoding, queue: seq<CharData>, bytes: seq<Byte>) returns (r: Result<(seq<CharData>, seq<CharData>)>)
    requires Held(queue)
    ensures r.Ok? ==> WellFormed(r.value.0) && Held(r.value.1)
    ensures WellBehaved(enc) ==> r.Ok? && Bytes(r.value.0) + Bytes(r.value.1) == Bytes(queue) + bytes
  {
    var units :- Core(enc, Bytes(queue) + bytes);
    var (out, rest) := Feed([], units);
    SplitWellFormed(units, out, rest);
    BytesAppend(out, rest);
    return Ok((out, rest));
  }

  /** One chunk extends what has been yielded and queued by the bytes just read. */
  lemma ChunkStep(content: seq<Byte>, start: nat, position: nat, out: seq<CharData>, queue: seq<CharData>,
                  bytes: seq<Byte>, out': seq<CharData>, queue': seq<CharData>)
    requires start <= position && position + |bytes| <= |content|
    requires Bytes(out) + Bytes(queue) == content[start..position]
    requires bytes == content[position..position + |bytes|]
    requires Bytes(out') + Bytes(queue') == Bytes(queue) + bytes
    ensures Bytes(out + out') + Bytes(queue') == content[start..position + |bytes|]
  {
    BytesAppend(out, out');
    calc {
      Bytes(out + out') + Bytes(queue');
      Bytes(out) + (Bytes(out') + Bytes(queue'));
      Bytes(out) + Bytes(queue) + bytes;
      content[start..position] + content[position..position + |bytes|];
      { SliceConcat(content, start, position, position + |bytes|); }
      content[start..position + |bytes|];
    }
  }

  /** What has been yielded and queued so far is the content read so far. */
  ghost predicate Consumed(enc: Encoding, content: seq<Byte>, start: nat, position: nat,
                           out: seq<CharData>, queue: seq<CharData>) {
    WellBehaved(enc) && position > start ==>
      position <= |content| && Bytes(out) + Bytes(queue) == content[start..position]
  }

  /** Units a chunk leaves queued: at most three, each filled and of one byte. */
  predicate Held(queue: seq<CharData>) {
    |queue| <= LOOKBACK && AllOneByte(queue) && forall i :: 0 <= i < |queue| ==> queue[i].filled
  }

  /**
    The loop asks for at least one byte while the queue cannot fill the
    buffer: either the buffer is longer than the queue can be, or it is
    exactly as long as the request and the queue holds bytes already read.
   */
  lemma CountPositive(bufLen: nat, cap: nat, queued: nat, consumed: nat, remaining: int)
    requires queued <= LOOKBACK && queued <= consumed && consumed + remaining == cap && remaining > 0
    requires bufLen > LOOKBACK || bufLen == cap
    ensures Min(bufLen - queued, remaining) >= 1
  {
  }

  /** When the loop stops, it has read the whole segment. */
  lemma ReadAll(content: seq<Byte>, start: nat, position: nat, cap: nat, out: seq<CharData>, queue: seq<CharData>)
    requires start <= position && position - start <= cap
    requires position == start ==> out == [] && queue == []
    requires position > start ==> position <= |content| && Bytes(out) + Bytes(queue) == content[start..position]
    requires position - start == cap || position >= |content|
    ensures Bytes(out + queue) == Segment(content, start, cap)
  {
    BytesAppend(out, queue);
  }

  /** The state of the read loop: the stream, `remainingBytes`, the units yielded and the queue. */
  datatype Progress = Progress(s: Stream, remaining: int, out: seq<CharData>, queue: seq<CharData>)

  /** What holds of the read loop's state between two chunks, reading from `start` at most `cap` bytes. */
  ghost predicate Reading(enc: Encoding, content: seq<Byte>, start: nat, cap: nat, p: Progress) {
    && p.s.content == content && ValidStream(p.s) && start <= p.s.position
    && 0 < p.remaining && p.s.position - start + p.remaining == cap
    && WellFormed(p.out) && Held(p.queue)
    && (p.s.position == start ==> p.out == [] && p.queue == [])
    && Consumed(enc, content, start, p.s.position, p.out, p.queue)
  }

  /** An empty read ends the loop with the whole segment read: the loop never asks for nothing. */
  lemma EmptyRead(enc: Encoding, content: seq<Byte>, start: nat, cap: nat, bufLen: nat, p: Progress)
    requires Reading(enc, content, start, cap, p) && (bufLen > LOOKBACK || bufLen == cap)
    requires Min(Min(bufLen - |p.queue|, p.remaining), Available(p.s)) == 0
    ensures WellBehaved(enc) ==> Bytes(p.out + p.queue) == Segment(content, start, cap)
  {
    if WellBehaved(enc) {
      if p.s.position > start {
        assert |Bytes(p.queue)| <= p.s.position - start;
      }
      CountPositive(bufLen, cap, |p.queue|, p.s.position - start, p.remaining);
      ReadAll(content, start, p.s.position, cap, p.out, p.queue);
    }
  }

  /** A chunk read and decoded either keeps the loop going or ends it with the whole segment read. */
  lemma Advanced(enc: Encoding, content: seq<Byte>, start: nat, cap: nat, p: Progress,
                 bytes: seq<Byte>, out': seq<CharData>, queue': seq<CharData>)
    requires Reading(enc, content, start, cap, p)
    requires 0 < |bytes| <= Min(p.remaining, Available(p.s))
    requires bytes == content[p.s.position..p.s.position + |bytes|]
    requires WellFormed(out') && Held(queue')
    requires WellBehaved(enc) ==> Bytes(out') + Bytes(queue') == Bytes(p.queue) + bytes
    ensures var next := Progress(p.s.(position := p.s.position + |bytes|), p.remaining - |bytes|, p.out + out', queue');
            && (next.remaining > 0 ==> Reading(enc, content, start, cap, next))
            && WellFormed(next.out)
            && (next.remaining <= 0 && WellBehaved(enc) ==> Bytes(next.out + queue') == Segment(content, start, cap))
  {
    var position := p.s.position;
    WellFormedAppend(p.out, out');
    if WellBehaved(enc) {
      if position == start {
        assert Bytes(p.out) + Bytes(p.queue) == content[start..position];
      }
      ChunkStep(content, start, position, p.out, p.queue, bytes, out', queue');
      if p.remaining - |bytes| <= 0 {
        ReadAll(content, start, position + |bytes|, cap, p.out + out', queue');
      }
    }
  }

  /**
    One pass of the read loop: read the next chunk, stopping at an empty read
    or once `remainingBytes` runs out, and decode it behind the queue. The
    flag says the loop is done; then the result's yielded units and queue
    together are all that is left to yield.
   */
  method ReadChunk(enc: Encoding, content: seq<Byte>, start: nat, cap: nat, bufLen: nat, p: Progress)
    returns (r: Result<(Progress, bool)>)
    requires Reading(enc, content, start, cap, p) && bufLen >= 1 && (bufLen > LOOKBACK || bufLen == cap)
    ensures r.Ok? && !r.value.1 ==>
              Reading(enc, content, start, cap, r.value.0) && p.s.position < r.value.0.s.position <= |content|
    ensures r.Ok? && r.value.1 ==> WellFormed(r.value.0.out) && Held(r.value.0.queue)
    ensures r.Ok? && r.value.1 && WellBehaved(enc) ==>
              Bytes(r.value.0.out + r.value.0.queue) == Segment(content, start, cap)
    ensures WellBehaved(enc) ==> r.Ok?
  {
    var count := Min(bufLen - |p.queue|, p.remaining);
    var read := Read(p.s, count);
    if read.Err? {
      return Err(read.error);
    }
    var (bytes, next) := read.value;
    if |bytes| == 0 {
      EmptyRead(enc, content, start, cap, bufLen, p);
      return Ok((p, true));
    }
    var chunk :- DecodeChunk(enc, p.queue, bytes);
    var (out', queue') := chunk;
    Advanced(enc, content, start, cap, p, bytes, out', queue');
    var p' := Progress(next, p.remaining - |bytes|, p.out + out', queue');
    return Ok((p', p'.remaining <= 0));
  }

  /**
    The read loop from a positioned stream: chunks of at most `bufLen`
    bytes, each decoded behind the queued units, until the stream ends or
    `cap` bytes have been read; then the queue is drained.
   */
  method ReadChunks(enc: Encoding, stream: Stream, cap: nat, bufLen: nat) returns (r: Result<seq<CharData>>)
    requires ValidStream(stream) && cap >= 1 && bufLen >= 1
    requires bufLen > LOOKBACK || bufLen == cap
    ensures r.Ok? ==> WellFormed(r.value)
    ensures WellBehaved(enc) ==> r.Ok? && Bytes(r.value) == Segment(stream.content, stream.position, cap)
  {
    var content := stream.content;
    var start := stream.position;
    var p := Progress(stream, cap, [], []);
    var units: seq<CharData> := [];
    while true
      invariant Reading(enc, content, start, cap, p)
      decreases |content| - p.s.position
    {
      var step :- ReadChunk(enc, content, start, cap, bufLen, p);
      if step.1 {
        var last := step.0;
        WellFormedWithoutContinuations(last.queue);
        WellFormedAppend(last.out, last.queue);
        units := last.out + last.queue;
        break;
      }
      p := step.0;
    }
    return Ok(units);
  }

  /**
    `HexDumpStream`: the units of the bytes from the positioned stream on, at
    most `length` of them when `length` is positive, all of them otherwise.
   */
  method HexDumpStream(enc: Encoding, stream: Stream, offset: int, length: int) returns (r: Result<seq<CharData>>)
    requires ValidStream(stream)
    ensures var p := Position(stream, offset, BufferLength(length));
            p.Err? ==> r == Err(p.error)
    ensures r.Ok? ==> WellFormed(r.value)
    ensures var p := Position(stream, offset, BufferLength(length));
            WellBehaved(enc) && p.Ok? ==>
              r.Ok? && Bytes(r.value) == Segment(stream.content, p.value.position, Cap(length))
  {
    var bufLen := BufferLength(length);
    var positioned := Position(stream, offset, bufLen);
    if positioned.Err? {
      return Err(positioned.error);
    }
    r := ReadChunks(enc, positioned.value, Cap(length), bufLen);
  }
}

=== FILE: top_bytes_fallback.dfy ===
/**
  `TopBytesFallback.TopByteFallbackBuffer`: the decoder fallback the dump
  installs. It keeps the unknown bytes reported at index 0 of a decode attempt
  and hands them back afterwards as undecodable units, never giving the
  decoder a substitution character.
 */
module TopBytesFallback {
  import opened Base
  import opened CharTypes
  import opened Units

  /** The buffer's state: the stored unknown bytes (`_bytesUnknown`). */
  datatype Buffer = Buffer(bytesUnknown: seq<Byte>)

  /** One call the decoder makes: `Fallback(bytesUnknown, index)`. */
  datatype FallbackCall = FallbackCall(bytesUnknown: seq<Byte>, index: int)

  /** A new buffer, and the state `Reset` returns to. */
  const FRESH: Buffer := Buffer([])

  /** `HasFallbackChars` */
  predicate HasFallbackChars(buf: Buffer) {
    |buf.bytesUnknown| > 0
  }

  /** `Reset` */
  function Reset(buf: Buffer): (r: Buffer)
    ensures !HasFallbackChars(r)
  {
    FRESH
  }

  /** `Remaining`: always 0, so the decoder never asks for a substitution. */
  function Remaining(buf: Buffer): int {
    0
  }

  /** `GetNextChar`: always NUL. */
  function GetNextChar(buf: Buffer): CodeUnit {
    0
  }

  /** `MovePrevious` throws NotImplementedException. */
  function MovePrevious(buf: Buffer): Result<bool> {
    Err(NotImplemented)
  }

  /**
    `Fallback(bytesUnknown, index)`: stores the bytes and reports them handled
    only at index 0; at any other index the buffer is left as it was.
   */
  function Fallback(buf: Buffer, bytesUnknown: seq<Byte>, index: int): (r: (bool, Buffer))
    ensures r.0 <==> index == 0
    ensures r.0 ==> r.1.bytesUnknown == bytesUnknown
    ensures !r.0 ==> r.1 == buf
  {
    if index == 0 then (true, Buffer(bytesUnknown)) else (false, buf)
  }

  /** The buffer after the decoder's calls of one decode attempt, in order. */
  function RunCalls(buf: Buffer, calls: seq<FallbackCall>): Buffer
    decreases |calls|
  {
    if calls == [] then buf
    else RunCalls(Fallback(buf, calls[0].bytesUnknown, calls[0].index).1, calls[1..])
  }

  /** Calls none of which is made at index 0 leave the buffer as it was. */
  lemma {:induction false} RunCallsWithoutTopCall(buf: Buffer, calls: seq<FallbackCall>)
    requires forall k :: 0 <= k < |calls| ==> calls[k].index != 0
    ensures RunCalls(buf, calls) == buf
    decreases |calls|
  {
    if calls != [] {
      assert calls[0].index != 0;
      assert forall k :: 0 <= k < |calls| - 1 ==> calls[1..][k] == calls[k + 1];
      RunCallsWithoutTopCall(buf, calls[1..]);
    }
  }

  /**
    After a decode attempt the buffer holds the bytes of the last call made at
    index 0.
   */
  lemma {:induction false} RunCallsKeepsLastTopCall(buf: Buffer, calls: seq<FallbackCall>, k: nat)
    requires k < |calls| && calls[k].index == 0
    requires forall m :: k < m < |calls| ==> calls[m].index != 0
    ensures RunCalls(buf, calls).bytesUnknown == calls[k].bytesUnknown
    decreases |calls|
  {
    var next := Fallback(buf, calls[0].bytesUnknown, calls[0].index).1;
    assert forall m :: 0 <= m < |calls| - 1 ==> calls[1..][m] == calls[m + 1];
    if k == 0 {
      RunCallsWithoutTopCall(next, calls[1..]);
    } else {
      RunCallsKeepsLastTopCall(next, calls[1..], k - 1);
    }
  }

  /**
    Whatever calls the decoder makes, the buffer offers it no substitution:
    `Remaining` is 0 and `GetNextChar` is NUL.
   */
  lemma NoSubstitution(buf: Buffer, calls: seq<FallbackCall>)
    ensures Remaining(RunCalls(buf, calls)) == 0
    ensures GetNextChar(RunCalls(buf, calls)) == 0
  {
  }

  /** The undecodable unit of a stored byte: its code point is the byte value. */
  function BinaryUnit(b: Byte): CharData {
    CharData(b, b, true, BINARY)
  }

  /**
    `GetFallbackChars`: one undecodable unit per stored byte, in order, after
    which the buffer is reset.
   */
  function GetFallbackChars(buf: Buffer): (r: (seq<CharData>, Buffer))
    ensures Bytes(r.0) == buf.bytesUnknown
    ensures |r.0| > 0 <==> HasFallbackChars(buf)
    ensures forall u <- r.0 :: u.filled && u.kind == BINARY && u.codePoint == u.b
    ensures !HasFallbackChars(r.1)
  {
    (seq(|buf.bytesUnknown|, i requires 0 <= i < |buf.bytesUnknown| => BinaryUnit(buf.bytesUnknown[i])), Reset(buf))
  }
}

=== FILE: utf16.dfy ===
/**
  UTF-16 conversions of the .NET `char` API that the decoder loop relies on:
  `char.IsSurrogatePair`, `char.ConvertToUtf32`, `char.ConvertFromUtf32`, and
  the loop of `HexDumpCore` that splits decoded chars into runes.
 */
module Unicode {
  import opened Base

  predicate IsHighSurrogate(c: int) {
    0xD800 <= c <= 0xDBFF
  }

  predicate IsLowSurrogate(c: int) {
    0xDC00 <= c <= 0xDFFF
  }

  predicate IsSurrogate(c: int) {
    0xD800 <= c <= 0xDFFF
  }

  /** `char.IsSurrogatePair(high, low)` */
  predicate IsSurrogatePair(high: int, low: int) {
    IsHighSurrogate(high) && IsLowSurrogate(low)
  }

  /** A Unicode scalar value: what `char.ConvertFromUtf32` accepts. */
  predicate IsScalar(cp: int) {
    0 <= cp <= 0x10FFFF && !IsSurrogate(cp)
  }

  /** `char.ConvertToUtf32(high, low)` */
  function CombineSurrogates(high: CodeUnit, low: CodeUnit): (cp: int)
    requires IsSurrogatePair(high, low)
    ensures 0x10000 <= cp <= 0x10FFFF
  {
    (high - 0xD800) * 0x400 + (low - 0xDC00) + 0x10000
  }

  /** The UTF-16 encoding of a scalar value. */
  function Encode(cp: int): (s: Utf16)
    requires IsScalar(cp)
    ensures 1 <= |s| <= 2
    ensures |s| == 1 <==> cp < 0x10000
  {
    if cp < 0x10000 then [cp]
    else [0xD800 + (cp - 0x10000) / 0x400, 0xDC00 + (cp - 0x10000) % 0x400]
  }

  /**
    `char.ConvertFromUtf32(cp)`, which throws ArgumentOutOfRangeException for
    anything but a scalar value.
   */
  function FromUtf32(cp: int): (r: Result<Utf16>)
    ensures r.Ok? <==> IsScalar(cp)
    ensures r.Ok? ==> r.value == Encode(cp) && ToUtf32(r.value) == cp
  {
    if IsScalar(cp) then Ok(Encode(cp)) else Err(InvalidCodePoint(cp))
  }

  /** `char.ConvertToUtf32(s, 0)` on a string that is not a lone surrogate. */
  function ToUtf32(s: Utf16): int
    requires |s| >= 1
  {
    if |s| >= 2 && IsSurrogatePair(s[0], s[1]) then CombineSurrogates(s[0], s[1]) else s[0]
  }

  /**
    The runes of a decoded char sequence, as the loop of `HexDumpCore` forms
    them: an adjacent surrogate pair is combined into one scalar, any other
    char is one rune, and a lone surrogate makes `char.ConvertFromUtf32` throw.
   */
  function Runes(chars: Utf16): (r: Result<seq<int>>)
    ensures r.Ok? ==> forall cp <- r.value :: IsScalar(cp)
    ensures r.Ok? ==> |r.value| <= |chars|
  {
    if chars == [] then Ok([])
    else if |chars| >= 2 && IsSurrogatePair(chars[0], chars[1]) then
      var rest :- Runes(chars[2..]);
      Ok([CombineSurrogates(chars[0], chars[1])] + rest)
    else if IsSurrogate(chars[0]) then Err(InvalidCodePoint(chars[0]))
    else
      var rest :- Runes(chars[1..]);
      Ok([chars[0] as int] + rest)
  }

  /** The UTF-16 string of a sequence of scalar values. */
  function EncodeAll(cps: seq<int>): (s: Utf16)
    requires forall cp <- cps :: IsScalar(cp)
  {
    if cps == [] then [] else Encode(cps[0]) + EncodeAll(cps[1..])
  }

  /** Splitting the encoding of scalars into runes gives the scalars back. */
  lemma {:induction false} RunesOfEncoding(cps: seq<int>)
    requires forall cp <- cps :: IsScalar(cp)
    ensures Runes(EncodeAll(cps)) == Ok(cps)
  {
    if cps != [] {
      var head := Encode(cps[0]);
      var s := EncodeAll(cps);
      assert s == head + EncodeAll(cps[1..]);
      RunesOfEncoding(cps[1..]);
      if |head| == 2 {
        assert s[2..] == EncodeAll(cps[1..]);
        assert CombineSurrogates(head[0], head[1]) == cps[0];
      } else {
        assert s[1..] == EncodeAll(cps[1..]);
        if |s| >= 2 {
          assert !IsHighSurrogate(s[0]);
        }
      }
      assert cps == [cps[0]] + cps[1..];
    }
  }

  /** Runes lose no char: encoding the runes gives the chars back. */
  lemma {:induction false} RunesLossless(chars: Utf16)
    requires Runes(chars).Ok?
    ensures EncodeAll(Runes(chars).value) == chars
  {
    if chars != [] {
      var cps := Runes(chars).value;
      if |chars| >= 2 && IsSurrogatePair(chars[0], chars[1]) {
        RunesLossless(chars[2..]);
        assert cps[1..] == Runes(chars[2..]).value;
        assert Encode(cps[0]) == chars[..2];
        assert chars == chars[..2] + chars[2..];
      } else {
        RunesLossless(chars[1..]);
        assert cps[1..] == Runes(chars[1..]).value;
        assert Encode(cps[0]) == [chars[0]];
        assert chars == [chars[0]] + chars[1..];
      }
    }
  }
}
